=== FILE: README.md ===
# PiCar-X remote control: a Dafny model of the command path

This project models how a drive command travels through the lab's three
programs, and proves properties of each step:

- the Electron renderer (`index.js`) turns a typed command or an arrow press
  into `send(cmd, options)` calls;
- the Electron main process (`main.js`) serialises each call as one line of
  JSON and writes it to the TCP socket, reconnecting 5 s after the socket
  closes;
- the robot's TCP server (`server_tcp.py`) frames the byte stream into
  lines, dispatches each request with `do_move`, answers each non-blank line
  with one result line, and stops the motors when the connection ends.

Modules, one per concern:

| file | module | models |
|---|---|---|
| values.dfy | `Values` | JSON scalars, JS objects as ordered properties, Python dicts |
| decimal.dfy | `Decimal` | decimal numerals and their values |
| text.dfy | `Text` | trimming and whitespace splitting, with whitespace as a parameter |
| jsnumber.dfy | `JsNumber` | JavaScript's `Number(string)` and what `\|\| undefined` keeps of it |
| framing.dfy | `Framing` | the buffer-and-split line framing of `handle` |
| robot.dfy | `Robot` | `do_move`: `int()` conversion, clamping, dispatch, sensor report |
| server.dfy | `Server` | `handle`: the receive loop, per-line answers, the final stop |
| jsontext.dfy | `JsonText` | `JSON.stringify` of a flat object, and a reader for that text |
| client.dfy | `Client` | the `pi-move` handler, the `data` handler, close and reconnect |
| renderer.dfy | `Renderer` | `update_data` and the arrow bindings |
| system.dfy | `System` | the three together: what a typed command or an arrow does to the motors |

Things outside the programs are parameters:

- `decode` stands for `json.loads(line.decode("utf-8"))`. It says whether
  decoding raises `JSONDecodeError`, raises some other exception, or yields
  a value, and what that value is.
- `sense(k)` gives the sensor readings for the k-th reply on a connection.
- `parse` stands for the client's `JSON.parse`.

Behaviour of the code worth noting:

- There is no correlation of replies with requests. `pi-move` answers
  `{ok: true}` as soon as it has written. The `data` handler only
  classifies and logs what arrives.
- In `{ cmd, ...options }` the options are spread last. An option named
  `cmd` therefore overrides the command name (`Client.MessageContents`).
- `socket` is never set back to null, and `connectToPi()` runs when the
  module loads. Once started, `pi-move` never reports "No socket
  connection". It keeps answering `{ok: true}` and writes to the closed
  socket (`Client.PiMoveAlwaysOk`, `Client.PiMoveWhileDisconnected`).
- Decoding a line can raise something other than `JSONDecodeError`:
  `UnicodeDecodeError` for a line that is not UTF-8, `RecursionError` for
  very deep nesting, `ValueError` for an over-long integer literal. Neither
  `except` clause of the loop catches these, so the connection ends without
  a reply and the `finally` clause stops the motors.
- The typed speed is a JavaScript number. A numeral of magnitude at least
  2^1024 - 2^970 (about 1.8e308; `JsNumber.Overflow`) becomes `Infinity`,
  which `JSON.stringify` writes as `null`.
  `int(None)` then raises in `do_move`, so the robot stops its motors and
  replies with the error (`System.TypedOverflowRaises`).

## Model

| member | source | states |
|---|---|---|
| Robot.PyInt | iot-lab-2/electron/server_tcp.py:19-20 | `int()` of a JSON scalar: an integer is itself, `True`/`False` are 1/0, `None` cannot be converted |
| Robot.IntOfIntText | iot-lab-2/electron/server_tcp.py:19-20 | `int()` of the decimal text of any integer gives that integer back |
| Robot.SeparatorRefused | iot-lab-2/electron/server_tcp.py:19-20 | `int()` refuses a numeral preceded or followed by one of the separators U+001C..U+001F, which `str.isspace()` counts as white space but `int()` does not skip |
| Robot.SeparatorExample | iot-lab-2/electron/server_tcp.py:19-20 | `int("\x1c5")` is refused, although `str.isspace()` holds of U+001C |
| Robot.Clamp | iot-lab-2/electron/server_tcp.py:23-24 | `max(lo, min(x, hi))` lies in `lo..hi`, is `x` when `x` is in range, and is the nearer bound otherwise |
| Robot.Speed | iot-lab-2/electron/server_tcp.py:19-23 | the speed used for a request is always within 0..100 |
| Robot.Angle | iot-lab-2/electron/server_tcp.py:20-24 | the steering angle used is always within -45..45 |
| Robot.Sense | iot-lab-2/electron/server_tcp.py:50-73 | a failed distance read is reported before the cliff read; otherwise a failed cliff read is reported; both succeed iff telemetry is returned, and the cliff is safe iff the status is exactly `False` |
| Robot.DoMove | iot-lab-2/electron/server_tcp.py:16-75 | `do_move` raises iff the request is not a dict or speed/angle do not convert; every motor call it makes is within limits; it answers `unknown_cmd` iff the command is not one of the six names |
| Robot.StraightDrive | iot-lab-2/electron/server_tcp.py:26-34 | `forward`/`backward` steer to the clamped angle, drive at the clamped speed in their own direction, and acknowledge |
| Robot.TurnIgnoresAngle | iot-lab-2/electron/server_tcp.py:36-44 | for a `left`/`right` request, replacing `angle` by any other value `int()` accepts changes nothing: the wheels steer -30/+30 degrees and drive forward at the clamped speed |
| Robot.DefaultSpeedAndAngle | iot-lab-2/electron/server_tcp.py:18-20 | a `forward` or `backward` request that gives only its command drives at speed 40 with the wheels straight |
| Robot.UnknownMovesNothing | iot-lab-2/electron/server_tcp.py:75 | a dict whose speed and angle convert, with an unknown or missing command, is refused and makes no motor call |
| Robot.OnlyMotionCommandsAct | iot-lab-2/electron/server_tcp.py:26-75 | a returned result made motor calls iff the command was one of the four drive commands or `stop` |
| Framing.Extract | iot-lab-2/electron/server_tcp.py:86-87 | the cut lines, each followed by a newline, then the remainder give back the buffer; neither the lines nor the remainder hold a newline |
| Framing.ExtractUnique | iot-lab-2/electron/server_tcp.py:86-87 | a buffer splits into newline-free lines and a newline-free remainder in only one way, and the loop finds it |
| Framing.ExtractAppend | iot-lab-2/electron/server_tcp.py:85-87 | cutting `x + y` gives what cutting `x` gives, then what cutting its leftover followed by `y` gives |
| Framing.FeedAllIsExtract | iot-lab-2/electron/server_tcp.py:81-87 | appending chunks one at a time and cutting after each yields the lines and remainder of cutting the whole stream at once |
| Framing.FragmentationInvariance | iot-lab-2/electron/server_tcp.py:81-87 | two ways of chunking the same stream are framed into the same lines and remainder |
| Server.AnswerLine | iot-lab-2/electron/server_tcp.py:88-100 | a blank line is skipped; a line whose decoding raises anything but `JSONDecodeError` ends the connection; a line that is not JSON gets `bad_json`; every motor call made is within limits |
| Server.ParsedLineReply | iot-lab-2/electron/server_tcp.py:95-100 | a decoded line is answered with `do_move`'s result; when `do_move` raises, the motors are stopped and the reply carries the exception |
| Server.Serve | iot-lab-2/electron/server_tcp.py:105-109 | however a connection ends, the last motor call is `stop` |
| Server.RunHandlesStreamLines | iot-lab-2/electron/server_tcp.py:81-101 | the receive loop handles exactly the complete lines of the received bytes, in order, and buffers the unfinished last line |
| Server.ServeFragmentationInvariant | iot-lab-2/electron/server_tcp.py:81-101 | the replies and motor calls depend only on the byte stream, not on how `recv` cut it |
| Server.RunAppend | iot-lab-2/electron/server_tcp.py:81-87 | running the loop over `a + b` is running it over `a` and then over `b` |
| Server.EndOfStream | iot-lab-2/electron/server_tcp.py:82-84 | an empty read ends the loop: nothing the peer sends after it is read |
| Server.OneReplyPerLine | iot-lab-2/electron/server_tcp.py:86-101 | while no line's decoding raises an uncaught exception, blank lines get no reply, every other line gets exactly one, in order, and the connection stays open |
| Server.HandledActionsSafe | iot-lab-2/electron/server_tcp.py:86-100 | handling lines adds only motor calls within the speed and steering limits |
| Server.ServeActionsSafe | iot-lab-2/electron/server_tcp.py:77-109 | every motor call over a whole connection, the final stop included, is within limits |
| JsonText.Stringify | iot-lab-2/electron/main.js:45 | the JSON text of the message is `{...}`, printable, and has no newline, so one message is one line |
| JsonText.StringifyRoundTrip | iot-lab-2/electron/main.js:45 | a conforming reader reads back exactly the properties written, in order |
| Client.AssignContents | iot-lab-2/electron/main.js:45 | assigning a property keeps the key order and appends a new key; the key gets the new value and every other key keeps its old one |
| Client.SpreadContents | iot-lab-2/electron/main.js:45 | `{...target, ...source}`: each source property wins, other target properties stay, new keys are appended in source order |
| Client.MessageContents | iot-lab-2/electron/main.js:45 | the message carries the command under `cmd` unless the options have their own `cmd`, which then wins; all other options are carried unchanged |
| Client.MessageKeys | iot-lab-2/electron/main.js:45 | `cmd` is the first key of the message, then the other option keys in order, with no key repeated |
| Client.Encode | iot-lab-2/electron/main.js:45 | the written line starts with `{` and ends with its only newline |
| Client.EncodeRoundTrip | iot-lab-2/electron/main.js:45 | the line without its newline reads back as the message object |
| Client.PiMove | iot-lab-2/electron/main.js:43-48 | with no socket the handler fails and writes nothing; otherwise it writes exactly the encoded line to the current socket and answers ok |
| Client.ConnectToPi | iot-lab-2/electron/main.js:11-14 | a new socket is created and the variable points at it; timers and writes are untouched |
| Client.StartValid | iot-lab-2/electron/main.js:9-39 | after module load the client has one live socket and no pending reconnect |
| Client.StepValid | iot-lab-2/electron/main.js:11-36 | every socket event and timer keeps exactly one of "a live socket" and "one reconnect pending" |
| Client.StepsValid | iot-lab-2/electron/main.js:11-39 | that invariant holds after any sequence of events |
| Client.CloseSchedulesOneRetry | iot-lab-2/electron/main.js:29-36 | a close schedules exactly one reconnect after 5000 ms; an error changes nothing |
| Client.PiMoveAlwaysOk | iot-lab-2/electron/main.js:39-47 | after start-up `pi-move` never reports a missing socket, whatever events happened |
| Client.PiMoveWhileDisconnected | iot-lab-2/electron/main.js:33-46 | after the socket closes, a move is still answered ok and its line goes to the closed socket |
| Client.SplitLines | iot-lab-2/electron/main.js:18 | `split("\n")` gives newline-free pieces that, joined by newlines, give back the text |
| Client.NonEmpty | iot-lab-2/electron/main.js:19 | the kept pieces are exactly the non-empty ones: each kept piece is a non-empty original piece, and each non-empty piece is kept |
| Client.NonEmptyAppend | iot-lab-2/electron/main.js:19 | filtering the pieces of `a + b` is filtering `a`, then filtering `b`: the filter keeps order |
| Client.NonEmptyOne | iot-lab-2/electron/main.js:19 | one piece is kept iff it is not empty |
| Client.DecodeChunk | iot-lab-2/electron/main.js:16-26 | the reports are one per non-empty line of the trimmed chunk, in order: the parsed value when `parse` succeeds, the line itself when it fails |
| Client.SingleLineChunk | iot-lab-2/electron/main.js:16-26 | a chunk without a newline that is not blank is reported as one line, its trimmed text |
| Client.SplitMessageIsTwoReports | iot-lab-2/electron/main.js:16-18 | the data handler keeps no buffer: a message cut into two chunks is reported as two fragments, the same bytes in one chunk as one report |
| Renderer.Typed | iot-lab-2/electron/index.js:50-51 | the typed text is empty exactly when the box holds only white space, and otherwise starts and ends with a non-space character |
| Renderer.TypedSlice | iot-lab-2/electron/index.js:50 | the typed text is the box's value with its leading and trailing white space cut off and every letter lower-cased: character k of the text is the lower-cased character k past the leading white space, and everything before and after it in the box is white space |
| Renderer.Words | iot-lab-2/electron/index.js:53 | the words are non-empty and hold no white space, and there are none iff the box is blank |
| Text.TokensSplit | iot-lab-2/electron/index.js:53 | every text is its tokens with blank separators around them and non-empty ones between them |
| Text.TokensOfInterleave | iot-lab-2/electron/index.js:53 | conversely, words joined by such separators split back into exactly those words |
| Renderer.WordsSplit | iot-lab-2/electron/index.js:50-53 | the typed text is its words with white space between them and none before the first |
| Renderer.WordsOfLayout | iot-lab-2/electron/index.js:50-53 | a box whose typed text is words separated by white space is read as exactly those words |
| Renderer.TypedSpeed | iot-lab-2/electron/index.js:55 | with no second word the speed is undefined; a second word that is a decimal integer is classified by its value: 0 is undefined, a magnitude up to 2^53 is that integer, one from 2^1024 - 2^970 on is ±Infinity |
| JsNumber.KeepTruthy | iot-lab-2/electron/index.js:55 | `NaN` and zero are dropped by `\|\| undefined`, `Infinity` is kept as infinite, and an integer kept exactly is non-zero and at most 2^53 in magnitude |
| JsNumber.NumberOr | iot-lab-2/electron/index.js:55 | `Number(word) \|\| undefined` of a word that reads as a signed decimal integer n is the classification of n itself: undefined for 0, exact up to 2^53, rounded above it, Infinity past the double range |
| JsNumber.DecimalIntegerKept | iot-lab-2/electron/index.js:55 | `Number(s) \|\| undefined` of a signed decimal integer `s` is the reference classification of its value |
| JsNumber.NumeralKept | iot-lab-2/electron/index.js:55 | in particular, the numeral of any integer is classified by that integer |
| Renderer.MotionFor | iot-lab-2/electron/index.js:58-62 | the five motion words send one request named after the word; `sensors` and unknown words send none |
| Renderer.Respond | iot-lab-2/electron/index.js:53-67 | a `forward`/`backward` with a speed the model does not follow is `Untracked`; otherwise one or two requests end with `sensors`, two iff the word moves, the first named by the word, and a notice iff the word is unknown, quoting the text |
| Renderer.UpdateData | iot-lab-2/electron/index.js:47-72 | a blank box sends nothing; otherwise as `Respond`, over the words of the trimmed, lower-cased text |
| Renderer.TypedStraight | iot-lab-2/electron/index.js:53-59 | `forward`/`backward` then `sensors` are sent with angle 0 and the typed speed: the default 40/30 when it is undefined, the integer when exact, `null` when infinite; the model follows every speed except a finite one that is not exact |
| Renderer.TypedNumeral | iot-lab-2/electron/index.js:50-59 | typing `forward n`: 0 gives the default speed, `n` up to 2^53 in magnitude is sent as it is, `n` from the overflow bound on is sent as `null`, and only the range in between is not followed |
| Renderer.WordSpeedUndefined | iot-lab-2/electron/index.js:55 | a second word starting with a letter (`fast`, `infinity` once lower-cased) is not a number, so `Number(...) \|\| undefined` gives no speed |
| Renderer.TypedWordDefault | iot-lab-2/electron/index.js:55-59 | `forward fast` or `backward fast` sends the default speed (40 or 30) with angle 0, then `sensors` |
| Renderer.StraightText | iot-lab-2/electron/index.js:50-55 | the text `forward n` splits into the word and the numeral, and the speed is `n` classified |
| Renderer.SentIntegersExact | iot-lab-2/electron/index.js:53-67 | every integer the text box sends is one a double holds exactly, so its JSON numeral is its value |
| Renderer.TypedTurnIgnoresSpeed | iot-lab-2/electron/index.js:60-61 | `left`/`right` always send speed 35, whatever follows the word |
| Renderer.TypedSensors | iot-lab-2/electron/index.js:63-67 | `sensors` sends only one `sensors` request and no notice |
| Renderer.NameAlone | iot-lab-2/electron/index.js:50-63 | each command word typed on its own is read as exactly that word |
| Renderer.CaseInsensitive | iot-lab-2/electron/index.js:50 | capitals in the box change nothing, not even an unknown-command notice |
| Renderer.ArrowMatchesTyped | iot-lab-2/electron/index.js:28-61 | pressing an arrow sends exactly what typing its word alone sends |
| Renderer.ReleaseMatchesTyped | iot-lab-2/electron/index.js:30-62 | releasing an arrow sends exactly what typing `stop` sends |
| Renderer.ReleaseAll | iot-lab-2/electron/index.js:20-25 | one window `mouseup` sends a `stop` per bound arrow, all before any `sensors` |
| Renderer.PressThenReleaseStops | iot-lab-2/electron/index.js:19-25 | after a press and a release, the last request that is not `sensors` is a `stop` |
| System.Utf8Char | iot-lab-2/electron/main.js:46 | each character is written as a well-formed UTF-8 sequence, and an ASCII character as its own code |
| System.NewlineByte | iot-lab-2/electron/main.js:46 | the newline byte occurs in the written bytes iff the text has a newline |
| System.EncodedLine | iot-lab-2/electron/main.js:45-46 | the bytes written are the message's JSON text, which has no newline byte, then one newline |
| System.DeliveredFields | iot-lab-2/electron/server_tcp.py:91 | the dict the robot decodes holds the command under `cmd` and exactly the options otherwise |
| System.StraightDelivered | iot-lab-2/electron/index.js:58-59 | a `forward`/`backward` request reaches the robot as a dict with its command, exactly the speed value sent (`null` included), and angle 0 |
| System.TurnDelivered | iot-lab-2/electron/index.js:60-61 | a `left`/`right` request reaches the robot with speed 35 and no angle field |
| System.WordDrives | iot-lab-2/electron/server_tcp.py:26-48 | every motion request the renderer sends drives the motors as its word says, at the clamped typed speed, except that a `null` speed makes `do_move` raise |
| System.SensorsReport | iot-lab-2/electron/server_tcp.py:50-73 | the renderer's `sensors` request gets the sensor report and moves nothing |
| System.ReleaseHalts | iot-lab-2/electron/server_tcp.py:46-48 | releasing an arrow stops the motors |
| System.ArrowDrives | iot-lab-2/electron/index.js:28-43 | up drives at 40, down reverses at 30, left and right turn at 35 with the wheels at -30/+30 degrees |
| System.TypedAnswered | iot-lab-2/electron/index.js:57-67 | nothing the text box sends is refused as unknown, and a request makes `do_move` raise iff it is a `forward`/`backward` whose typed speed is infinite |
| System.TypedOverflowRaises | iot-lab-2/electron/server_tcp.py:19 | typing `forward n` with `n` beyond the double range sends two requests, and `do_move` raises `int(None)` on the first |
| System.OneLineOneReply | iot-lab-2/electron/server_tcp.py:81-109 | a connection receiving one non-blank decodable line sends one reply, `do_move`'s, and ends with `stop` |
| System.OneMoveOneReply | iot-lab-2/electron/main.js:43-47 | when `json.loads` reads every object text the JSON reader accepts, and whose integers a double holds exactly, as that object, one `pi-move` whose options hold only such integers (as every renderer request does, `Renderer.SentIntegersExact`), sent over a fresh connection, however the line is chunked, gets exactly one reply, `do_move`'s, and the motors stop at the end |
| System.MessageExact | iot-lab-2/electron/main.js:45 | `{ cmd, ...options }` holds only integers a double represents exactly whenever the options do |

## Left out

- Hardware, sockets, threads, `main()` and the Electron window code are not modelled. Motor calls become `Action` values and sensor reads become the `Readings` parameter.
- Robot.Sense: the distance is given already rounded. `round(..., 2)` on floating point is not modelled.
- Robot.PyInt: floats, nested lists and nested objects are not in the value type, so `int()` of a float or of a container is not modelled.
- Robot.DoMove: the text of a Python exception is kept as the exception itself (`PyError`), not as the string `str(e)` builds.
- Robot.IntOfIntText: `int()` also accepts non-ASCII Unicode digits. Only ASCII digits are modelled.
- Robot.PyInt: the limit of 4300 digits that Python 3.11 and later put on `int()` of a string is not modelled.
- Server.Serve: `json.loads` and UTF-8 decoding are the `decode` parameter, so the parser itself, its recursion limit and its integer-length limit are not modelled. The idle time-out and the errors of `recv` that end a connection are modelled as the end of the chunk sequence.
- Server.Serve: a failing `conn.sendall` (server_tcp.py:93 and 101) is not modelled. Its time-out, caught at line 102, or an `OSError` ends the connection in the middle of a chunk, while the model goes on to handle, and drive on, the remaining lines of that chunk; the final `stop` is the same either way.
- Server.AnswerLine: the exact bytes of `json.dumps(resp)` for a reply are not modelled; a reply is a `Response` value.
- JsonText.Stringify: numbers are integers, written as their decimal numeral. That is what `JSON.stringify` writes only for integers a double holds exactly; the renderer sends no other (`Renderer.SentIntegersExact`). Fractions, exponents and `-0` are not modelled; `Infinity` is sent as the `null` it is written as.
- JsonText.StringifyRoundTrip: the reader accepts only the compact form `JSON.stringify` writes (no insignificant whitespace, integers only), not all of JSON.
- Client.SpreadContents: JS objects put integer-like keys first, in numeric order. That ordering is not modelled; keys keep insertion order.
- Client.DecodeChunk: a chunk is taken as already-decoded text. `buf.toString("utf8")` of a chunk that cuts a multi-byte character is not modelled. `JSON.parse` is the `parse` parameter, and the console output is not modelled.
- Client.Step: the log lines of the `connect`, `error` and `close` handlers are not modelled. The 5 s delay is a timer value, not a clock.
- Renderer.Typed: `toLowerCase` is modelled for ASCII letters only.
- Renderer.TypedSpeed: decimal-integer words are classified exactly, and a word starting with a letter gives no speed (`Renderer.WordSpeedUndefined`). Fractions, exponents, `0x`/`0o`/`0b` literals and signed words go through `JsNumber.ToNumber` too, but no lemma classifies them: a fraction or exponent usually denotes a value that is not an integer a double holds exactly, and following that needs the rounding that `Renderer.UpdateData` leaves out.
- Renderer.UpdateData: a `forward`/`backward` speed that is finite and not an exactly held integer (a fraction, or an integer above 2^53 and below the overflow bound) gives `Untracked`: following it needs IEEE round-to-nearest and the shortest-digits output of `Number::toString`, which are not modelled.
- JsNumber.KeepTruthy: rounding is taken as correct rounding, as V8 does; ECMA-262 also lets an implementation round after the 20th significant digit, which is not modelled.
- Renderer.UpdateData: the DOM is not modelled. That covers the status element, `lastDirection`/`lastSpeed`, and the `catch` branch that displays an error when `send` rejects, which cannot happen once the client has started.
- Renderer.ReleaseAll: the DOM event machinery is not modelled. Awaiting in the release handlers is reduced to the order in which their requests go out. `pressArrow` and `releaseArrows` are called at index.js:19-20 but defined in no file of the program; they are taken to return normally. A throw from `releaseArrows` would skip that handler's `stop`, which is not modelled.
- `refreshSensors` is not modelled beyond the `sensors` request it sends. `updatePanel`, which it calls with the reply, is defined in no file of the program and is not modelled.

=== FILE: client.dfy ===
/** The desktop client's connection code (iot-lab-2/electron/main.js): the
    `pi-move` request handler that encodes a command and writes it to the
    socket, the `data` handler that splits and classifies what arrives, and
    the close-then-reconnect rule of `connectToPi`.

    There is no queue of pending requests and no pairing of replies with
    requests: `pi-move` answers `{ok: true}` as soon as it has written, and
    inbound data is only classified and logged.
 */
module Client {

  import opened Values
  import opened Text
  import opened Framing
  import opened JsonText

  const ReconnectDelayMs: nat := 5000

  // ----- building and encoding a request -----

  /** `obj[k] = v`: an existing property keeps its position, a new one is
      appended. */
  function Assign(obj: Fields, k: string, v: Value): (r: Fields)
  {
    if obj == [] then [(k, v)]
    else if obj[0].0 == k then [(k, v)] + obj[1..]
    else [obj[0]] + Assign(obj[1..], k, v)
  }

  /** Assigning keeps the key order and appends a key that is new. */
  lemma {:induction false} AssignKeys(obj: Fields, k: string, v: Value)
    ensures Keys(Assign(obj, k, v)) == if k in Keys(obj) then Keys(obj) else Keys(obj) + [k]
    decreases |obj|
  {
    var r := Assign(obj, k, v);
    if obj != [] {
      assert Keys(obj) == [obj[0].0] + Keys(obj[1..]);
      if obj[0].0 == k {
        assert r[1..] == obj[1..];
        assert Keys(r) == [k] + Keys(obj[1..]);
      } else {
        var tail := Assign(obj[1..], k, v);
        AssignKeys(obj[1..], k, v);
        assert r[1..] == tail;
        assert Keys(r) == [obj[0].0] + Keys(tail);
      }
    }
  }

  /** After assigning, `k` has the new value and every other key its old one. */
  lemma {:induction false} AssignLookup(obj: Fields, k: string, v: Value, k': string)
    ensures Lookup(Assign(obj, k, v), k') == if k' == k then Some(v) else Lookup(obj, k')
    decreases |obj|
  {
    var r := Assign(obj, k, v);
    if obj != [] {
      if obj[0].0 == k {
        assert r[1..] == obj[1..];
      } else {
        AssignLookup(obj[1..], k, v, k');
        assert r[1..] == Assign(obj[1..], k, v);
      }
    }
  }

  lemma AssignContents(obj: Fields, k: string, v: Value)
    ensures var r := Assign(obj, k, v);
            && Keys(r) == (if k in Keys(obj) then Keys(obj) else Keys(obj) + [k])
            && Lookup(r, k) == Some(v)
            && (forall k' :: k' != k ==> Lookup(r, k') == Lookup(obj, k'))
  {
    AssignKeys(obj, k, v);
    AssignLookup(obj, k, v, k);
    forall k' | k' != k
      ensures Lookup(Assign(obj, k, v), k') == Lookup(obj, k')
    {
      AssignLookup(obj, k, v, k');
    }
  }

  /** An object whose key sequence has no repetition has distinct keys. */
  lemma DistinctKeysOfKeys(f: Fields)
    requires forall i, j :: 0 <= i < j < |Keys(f)| ==> Keys(f)[i] != Keys(f)[j]
    ensures DistinctKeys(f)
  {
    var ks := Keys(f);
    forall i, j | 0 <= i < j < |f| ensures f[i].0 != f[j].0 {
      assert ks[i] == f[i].0 && ks[j] == f[j].0;
    }
  }

  /** `{...target, ...source}`: the properties of `source` assigned in order. */
  function Spread(target: Fields, source: Fields): Fields
    decreases |source|
  {
    if source == [] then target
    else Spread(Assign(target, source[0].0, source[0].1), source[1..])
  }

  /** The object literal `{ cmd, ...options }` of the `pi-move` handler. */
  function Message(cmd: string, options: Fields): Fields
  {
    Spread([("cmd", VStr(cmd))], options)
  }

  /** The line `pi-move` writes: the JSON text of the message and a newline. */
  function Encode(cmd: string, options: Fields): (msg: string)
    ensures |msg| >= 3 && msg[0] == '{'
    ensures msg[|msg| - 1] == '\n' && '\n' !in msg[..|msg| - 1]
  {
    var body := Stringify(Message(cmd, options));
    assert (body + "\n")[..|body|] == body;
    body + "\n"
  }

  /** The keys of `ks` that are not in `seen`, in order. */
  function Unseen(ks: seq<string>, seen: seq<string>): seq<string>
  {
    if ks == [] then [] else (if ks[0] in seen then [] else [ks[0]]) + Unseen(ks[1..], seen)
  }

  lemma {:induction false} UnseenIgnores(ks: seq<string>, seen: seq<string>, k: string)
    requires k !in ks
    ensures Unseen(ks, seen + [k]) == Unseen(ks, seen)
    decreases |ks|
  {
    if ks != [] {
      assert ks[0] != k;
      assert ks[0] in seen + [k] <==> ks[0] in seen;
      UnseenIgnores(ks[1..], seen, k);
    }
  }

  /** Spreading a source with distinct keys: each of its properties wins
      over the target's, other target properties stay, and new keys are
      appended in source order. */
  lemma {:induction false} SpreadContents(target: Fields, source: Fields)
    requires DistinctKeys(source)
    ensures forall k :: Lookup(Spread(target, source), k)
                          == if k in Keys(source) then Lookup(source, k) else Lookup(target, k)
    ensures Keys(Spread(target, source)) == Keys(target) + Unseen(Keys(source), Keys(target))
    decreases |source|
  {
    if source != [] {
      var s0 := source[0];
      var t' := Assign(target, s0.0, s0.1);
      AssignContents(target, s0.0, s0.1);
      var tail := source[1..];
      assert DistinctKeys(tail);
      assert Keys(source) == [s0.0] + Keys(tail);
      assert s0.0 !in Keys(tail);
      SpreadContents(t', tail);
      assert Spread(target, source) == Spread(t', tail);
      forall k
        ensures Lookup(Spread(target, source), k)
                  == if k in Keys(source) then Lookup(source, k) else Lookup(target, k)
      {
        if k != s0.0 {
          assert Lookup(source, k) == Lookup(tail, k);
        }
      }
      if s0.0 in Keys(target) {
        assert Unseen(Keys(source), Keys(target)) == Unseen(Keys(tail), Keys(target));
      } else {
        UnseenIgnores(Keys(tail), Keys(target), s0.0);
        assert Unseen(Keys(source), Keys(target)) == [s0.0] + Unseen(Keys(tail), Keys(target));
      }
    } else {
      assert Unseen(Keys(source), Keys(target)) == [];
    }
  }

  /** The keys `Unseen` keeps are distinct, new, and drawn from `ks`. */
  lemma {:induction false} UnseenDistinct(ks: seq<string>, seen: seq<string>)
    requires forall i, j :: 0 <= i < j < |ks| ==> ks[i] != ks[j]
    ensures var u := Unseen(ks, seen);
            && (forall i, j :: 0 <= i < j < |u| ==> u[i] != u[j])
            && (forall x :: x in u ==> x in ks && x !in seen)
    decreases |ks|
  {
    if ks != [] {
      UnseenDistinct(ks[1..], seen);
      var u := Unseen(ks, seen);
      var tail := Unseen(ks[1..], seen);
      assert ks[0] !in ks[1..];
      assert ks[0] !in tail;
      if ks[0] !in seen {
        assert u == [ks[0]] + tail;
        forall i, j | 0 <= i < j < |u| ensures u[i] != u[j] {
          if i > 0 { assert u[i] == tail[i - 1] && u[j] == tail[j - 1]; }
          else { assert u[j] == tail[j - 1]; }
        }
      }
    }
  }

  /** The message carries the command name under `cmd` unless the options
      have their own `cmd`, which then wins because it is spread in later;
      every other option is carried unchanged. */
  lemma MessageContents(cmd: string, options: Fields)
    requires DistinctKeys(options)
    ensures var m := Message(cmd, options);
            && Lookup(m, "cmd") == (if "cmd" in Keys(options) then Lookup(options, "cmd") else Some(VStr(cmd)))
            && (forall k :: k != "cmd" ==> Lookup(m, k) == Lookup(options, k))
  {
    var t: Fields := [("cmd", VStr(cmd))];
    assert Lookup(t, "cmd") == Some(VStr(cmd));
    assert forall k :: k != "cmd" ==> Lookup(t, k) == None;
    SpreadContents(t, options);
  }

  /** `cmd` is the message's first key, followed by the other option keys
      in order, and no key appears twice. */
  lemma MessageKeys(cmd: string, options: Fields)
    requires DistinctKeys(options)
    ensures var m := Message(cmd, options);
            && Keys(m) == ["cmd"] + Unseen(Keys(options), ["cmd"])
            && DistinctKeys(m)
  {
    var t: Fields := [("cmd", VStr(cmd))];
    var m := Message(cmd, options);
    assert Keys(t) == ["cmd"];
    SpreadContents(t, options);
    var ks := Keys(options);
    var u := Unseen(ks, ["cmd"]);
    var km := Keys(m);
    assert km == ["cmd"] + u;
    UnseenDistinct(ks, ["cmd"]);
    forall i, j | 0 <= i < j < |km| ensures km[i] != km[j] {
      assert km[j] == u[j - 1];
      if i > 0 { assert km[i] == u[i - 1]; } else { assert u[j - 1] in u; }
    }
    DistinctKeysOfKeys(m);
  }

  /** What a conforming peer reads from the line `pi-move` writes is the
      message object, property by property. */
  lemma EncodeRoundTrip(cmd: string, options: Fields)
    ensures var msg := Encode(cmd, options);
            ReadObject(msg[..|msg| - 1]) == Some(Message(cmd, options))
  {
    var msg := Encode(cmd, options);
    assert msg[..|msg| - 1] == Stringify(Message(cmd, options));
    StringifyRoundTrip(Message(cmd, options));
  }

  // ----- the `pi-move` handler -----

  /** The value the handler resolves the renderer's call with. */
  datatype PiResult = PiOk | PiFail(error: string)

  /** One `socket.write(msg)` on the socket with the given number. */
  datatype Write = Write(socket: nat, data: string)

  /** The client's connection state: the socket the module variable refers
      to (sockets are numbered in creation order), the sockets not yet
      closed, the pending reconnect timers (their delays, oldest first), and
      everything written so far. */
  datatype Client = Client(socket: Option<nat>, created: nat, live: set<nat>,
                           timers: seq<nat>, writes: seq<Write>)

  /** `ipcMain.handle('pi-move', ...)`.  The null check looks only at the
      variable, not at whether that socket is still connected. */
  function PiMove(c: Client, cmd: string, options: Fields): (r: (PiResult, Client))
    ensures c.socket.None? ==> r == (PiFail("No socket connection"), c)
    ensures c.socket.Some? ==> r.0 == PiOk
    ensures r.1.(writes := c.writes) == c
    ensures c.socket.Some? ==> r.1.writes == c.writes + [Write(c.socket.value, Encode(cmd, options))]
  {
    match c.socket
    case None => (PiFail("No socket connection"), c)
    case Some(s) => (PiOk, c.(writes := c.writes + [Write(s, Encode(cmd, options))]))
  }

  // ----- connection lifecycle -----

  /** Socket events, each from the socket with the given number, and the
      firing of the oldest reconnect timer. */
  datatype Event = Connect(id: nat) | Data(id: nat, chunk: string) | Error(id: nat, message: string)
                 | Close(id: nat) | TimerFires

  /** Module load: `let socket = null`, before `connectToPi()` has run. */
  const Loaded: Client := Client(None, 0, {}, [], [])

  /** `connectToPi()`: create the next socket and point the variable at it. */
  function ConnectToPi(c: Client): (r: Client)
    ensures r.socket == Some(c.created) && r.created == c.created + 1
    ensures r.live == c.live + {c.created}
    ensures r.timers == c.timers && r.writes == c.writes
  {
    Client(Some(c.created), c.created + 1, c.live + {c.created}, c.timers, c.writes)
  }

  /** The effect of one event.  `connect`, `data` and `error` only log; a
      socket's `close` schedules one reconnect after 5 s (a socket closes
      once, so a second close of the same socket does not occur); a timer
      firing runs `connectToPi` again.  `socket` is never reset to null. */
  function Step(c: Client, e: Event): Client
  {
    match e
    case Connect(_) => c
    case Data(_, _) => c
    case Error(_, _) => c
    case Close(id) => if id in c.live then c.(live := c.live - {id}, timers := c.timers + [ReconnectDelayMs]) else c
    case TimerFires => if c.timers == [] then c else ConnectToPi(c.(timers := c.timers[1..]))
  }

  function Steps(c: Client, es: seq<Event>): Client
    decreases |es|
  {
    if es == [] then c else Steps(Step(c, es[0]), es[1..])
  }

  /** The states reachable after start-up: the variable names the newest
      socket, and at every moment exactly one of "a socket not yet closed"
      and "a reconnect pending" holds — never two connections or two retry
      loops at once. */
  ghost predicate Valid(c: Client)
  {
    && c.created > 0
    && c.socket == Some(c.created - 1)
    && (forall id :: id in c.live ==> id < c.created)
    && |c.live| + |c.timers| == 1
    && (forall i :: 0 <= i < |c.timers| ==> c.timers[i] == ReconnectDelayMs)
  }

  lemma StartValid()
    ensures Valid(ConnectToPi(Loaded))
  {
  }

  lemma StepValid(c: Client, e: Event)
    requires Valid(c)
    ensures Valid(Step(c, e))
  {
    match e
    case Close(id) =>
      if id in c.live {
        assert |c.live - {id}| == |c.live| - 1;
      }
    case TimerFires =>
      if c.timers != [] {
        assert |c.timers| == 1 && c.live == {};
        var r := Step(c, e);
        assert r.live == {c.created};
      }
    case _ =>
  }

  /** Whatever events occur after start-up, the client stays valid. */
  lemma {:induction false} StepsValid(c: Client, es: seq<Event>)
    requires Valid(c)
    ensures Valid(Steps(c, es))
    decreases |es|
  {
    if es != [] {
      StepValid(c, es[0]);
      StepsValid(Step(c, es[0]), es[1..]);
    }
  }

  /** A close of a live socket schedules exactly one reconnect, 5000 ms out;
      an error schedules nothing and changes nothing. */
  lemma CloseSchedulesOneRetry(c: Client, id: nat, message: string)
    requires id in c.live
    ensures Step(c, Close(id)).timers == c.timers + [ReconnectDelayMs]
    ensures Step(c, Close(id)).socket == c.socket
    ensures Step(c, Error(id, message)) == c
  {
  }

  /** After start-up `pi-move` never reports 'No socket connection': even
      while the connection is down it writes to the closed socket and
      answers `{ok: true}`. */
  lemma PiMoveAlwaysOk(es: seq<Event>, cmd: string, options: Fields)
    ensures var c := Steps(ConnectToPi(Loaded), es);
            PiMove(c, cmd, options).0 == PiOk
  {
    StartValid();
    StepsValid(ConnectToPi(Loaded), es);
  }

  /** Concretely: after the first socket closes, a move is still reported
      as done, and its line goes to the closed socket. */
  lemma PiMoveWhileDisconnected(cmd: string, options: Fields)
    ensures var c := Steps(ConnectToPi(Loaded), [Close(0)]);
            && c.live == {} && c.socket == Some(0)
            && PiMove(c, cmd, options).0 == PiOk
            && PiMove(c, cmd, options).1.writes == [Write(0, Encode(cmd, options))]
  {
    var c0 := ConnectToPi(Loaded);
    assert c0.live == {0};
    var c1 := Step(c0, Close(0));
    assert c1.live == {} && c1.writes == [] && c1.socket == Some(0);
    assert [Close(0)][1..] == [];
    assert Steps(c0, [Close(0)]) == c1;
    assert [] + [Write(0, Encode(cmd, options))] == [Write(0, Encode(cmd, options))];
  }

  // ----- the `data` handler -----

  /** How one received line is reported: parsed, or verbatim as raw text. */
  datatype Report<J> = Parsed(value: J) | Raw(line: string)

  /** `text.split("\n")`: the pieces between newlines, empty ones included. */
  function SplitLines(text: string): (pieces: seq<string>)
    ensures |pieces| > 0
    ensures forall i :: 0 <= i < |pieces| ==> '\n' !in pieces[i]
    ensures Join(pieces[..|pieces| - 1], '\n') + pieces[|pieces| - 1] == text
  {
    var s := Extract(text, '\n');
    var pieces := s.lines + [s.rest];
    assert pieces[..|pieces| - 1] == s.lines;
    pieces
  }

  /** The lines of a chunk that get reported, in order: the pieces with
      the empty ones left out (`NonEmptyAppend`, `NonEmptyOne`). */
  function NonEmpty(pieces: seq<string>): (r: seq<string>)
    ensures forall i :: 0 <= i < |r| ==> r[i] != [] && r[i] in pieces
    ensures forall p :: p in pieces && p != [] ==> p in r
    ensures |r| <= |pieces|
  {
    if pieces == [] then []
    else
      var tail := NonEmpty(pieces[1..]);
      assert forall p :: p in pieces ==> p == pieces[0] || p in pieces[1..];
      (if pieces[0] == [] then [] else [pieces[0]]) + tail
  }

  /** Filtering distributes over concatenation. */
  lemma {:induction false} NonEmptyAppend(a: seq<string>, b: seq<string>)
    ensures NonEmpty(a + b) == NonEmpty(a) + NonEmpty(b)
    decreases |a|
  {
    if a == [] {
      assert a + b == b;
    } else {
      var h := if a[0] == [] then [] else [a[0]];
      var t := a[1..];
      NonEmptyAppend(t, b);
      assert NonEmpty(a + b) == h + NonEmpty(t + b) by {
        assert (a + b)[0] == a[0] && (a + b)[1..] == t + b;
      }
      assert NonEmpty(a) == h + NonEmpty(t);
      Assoc(h, NonEmpty(t), NonEmpty(b));
    }
  }

  /** A single piece is kept exactly when it is not empty. */
  lemma NonEmptyOne(p: string)
    ensures NonEmpty([p]) == if p == [] then [] else [p]
  {
    assert [p][1..] == [];
  }

  function Classify<J>(line: string, parse: string -> Option<J>): Report<J>
  {
    match parse(line)
    case Some(v) => Parsed(v)
    case None => Raw(line)
  }

  function ClassifyAll<J>(lines: seq<string>, parse: string -> Option<J>): (rs: seq<Report<J>>)
    ensures |rs| == |lines|
    ensures forall i :: 0 <= i < |lines| ==> rs[i] == Classify(lines[i], parse)
  {
    if lines == [] then [] else [Classify(lines[0], parse)] + ClassifyAll(lines[1..], parse)
  }

  /** The `data` handler for one chunk: trim the whole chunk, split it at
      newlines, skip empty lines, and report each other line as parsed JSON
      (`parse` stands for `JSON.parse`) or as raw text.  Nothing is kept for
      the next chunk. */
  function DecodeChunk<J>(chunk: string, parse: string -> Option<J>): (rs: seq<Report<J>>)
    ensures var lines := NonEmpty(SplitLines(Trim(chunk, JsSpace)));
            && |rs| == |lines|
            && forall i :: 0 <= i < |rs| ==>
                 (rs[i].Raw? ==> rs[i].line == lines[i] && parse(lines[i]).None?)
                 && (rs[i].Parsed? ==> parse(lines[i]) == Some(rs[i].value))
  {
    ClassifyAll(NonEmpty(SplitLines(Trim(chunk, JsSpace))), parse)
  }

  /** A chunk with no newline in it whose trimmed text is not empty is
      reported as exactly one line. */
  lemma SingleLineChunk<J>(chunk: string, parse: string -> Option<J>)
    requires '\n' !in chunk
    requires !Blank(chunk, JsSpace)
    ensures DecodeChunk(chunk, parse) == [Classify(Trim(chunk, JsSpace), parse)]
  {
    var t := Trim(chunk, JsSpace);
    assert '\n' !in t by {
      var i := SkipSpace(chunk, 0, JsSpace);
      assert t == chunk[i..i + |t|];
      assert forall k :: 0 <= k < |t| ==> t[k] == chunk[i + k];
    }
    ExtractUnique([], t, '\n');
    assert SplitLines(t) == [t];
    assert NonEmpty([t]) == [t];
  }

  /** The data handler keeps no buffer: one message cut into two chunks is
      reported as two fragments, while the same bytes in one chunk are one
      report.  Unlike the robot's side, this side is not invariant under
      fragmentation. */
  lemma SplitMessageIsTwoReports<J>(a: string, b: string, parse: string -> Option<J>)
    requires '\n' !in a && '\n' !in b
    requires !Blank(a, JsSpace) && !Blank(b, JsSpace)
    ensures |DecodeChunk(a + b, parse)| == 1
    ensures |DecodeChunk(a, parse) + DecodeChunk(b, parse)| == 2
  {
    SingleLineChunk(a, parse);
    SingleLineChunk(b, parse);
    assert '\n' !in a + b;
    assert !Blank(a + b, JsSpace) by {
      var k :| 0 <= k < |a| && !JsSpace(a[k]);
      assert (a + b)[k] == a[k];
    }
    SingleLineChunk(a + b, parse);
  }
}

=== FILE: decimal.dfy ===
/** Decimal numerals, shared by the three places the protocol turns text into
    integers or back: JSON rendering of numbers, JavaScript's `Number(...)`
    on a typed token, and Python's `int(...)` on a request field.
 */
module Decimal {

  import opened Values

  predicate IsDigit(c: char)
  {
    '0' <= c <= '9'
  }

  predicate AllDigits(s: string)
  {
    forall i :: 0 <= i < |s| ==> IsDigit(s[i])
  }

  function DigitValue(c: char): (d: nat)
    requires IsDigit(c)
    ensures d < 10
  {
    (c as int - '0' as int) as nat
  }

  function DigitChar(d: nat): (c: char)
    requires d < 10
    ensures IsDigit(c) && DigitValue(c) == d
  {
    ('0' as int + d) as char
  }

  /** The number a run of digits denotes, most significant digit first. */
  function DigitsValue(s: string): nat
    requires AllDigits(s)
  {
    if s == [] then 0 else 10 * DigitsValue(s[..|s| - 1]) + DigitValue(s[|s| - 1])
  }

  /** The shortest decimal numeral of `n`. */
  function NatText(n: nat): (s: string)
    ensures |s| > 0 && AllDigits(s)
    ensures DigitsValue(s) == n
    ensures |s| > 1 ==> s[0] != '0'
  {
    if n < 10 then [DigitChar(n)]
    else
      var s := NatText(n / 10) + [DigitChar(n % 10)];
      assert s[..|s| - 1] == NatText(n / 10);
      s
  }

  /** The numeral `String(n)` / `str(n)` produces: a minus sign before the
      magnitude of a negative number. */
  function IntText(n: int): (s: string)
    ensures |s| > 0
    ensures n < 0 <==> s[0] == '-'
  {
    if n < 0 then "-" + NatText(-n) else NatText(n)
  }

  /** An optional sign followed by one or more digits. */
  function ParseSigned(s: string): (r: Option<int>)
  {
    if |s| > 0 && (s[0] == '+' || s[0] == '-') then
      var mag := s[1..];
      if |mag| > 0 && AllDigits(mag) then
        Some(if s[0] == '-' then -(DigitsValue(mag) as int) else DigitsValue(mag))
      else None
    else if |s| > 0 && AllDigits(s) then Some(DigitsValue(s) as int)
    else None
  }

  /** Rendering an integer and reading it back gives the same integer. */
  lemma ParseIntText(n: int)
    ensures ParseSigned(IntText(n)) == Some(n)
  {
    if n < 0 {
      assert IntText(n)[1..] == NatText(-n);
    }
  }
}

=== FILE: framing.dfy ===
/** Line framing of a byte stream, as the robot's connection handler does it
    (iot-lab-2/electron/server_tcp.py, `handle`): every received chunk is
    appended to a buffer that survives across reads, and while the buffer
    holds a delimiter the text before the first delimiter is cut off as one
    line.  Generic in the element type so the same definitions serve bytes.
 */
module Framing {

  /** Lines each followed by the delimiter: the bytes that framed `lines`. */
  function Join<T>(lines: seq<seq<T>>, delim: T): seq<T>
  {
    if lines == [] then [] else lines[0] + [delim] + Join(lines[1..], delim)
  }

  /** Flattening of a chunk sequence: the stream the chunks were cut from. */
  function Concat<T>(chunks: seq<seq<T>>): seq<T>
  {
    if chunks == [] then [] else chunks[0] + Concat(chunks[1..])
  }

  /** Position of the first `d` in `s`, or `|s|` when there is none. */
  function IndexOf<T(==)>(s: seq<T>, d: T): (i: nat)
    ensures i <= |s|
    ensures forall j :: 0 <= j < i ==> s[j] != d
    ensures i < |s| ==> s[i] == d
  {
    if s == [] || s[0] == d then 0 else 1 + IndexOf(s[1..], d)
  }

  /** The complete lines found in a buffer, and what is left of it. */
  datatype Split<T> = Split(lines: seq<seq<T>>, rest: seq<T>)

  predicate NoDelim<T(==)>(lines: seq<seq<T>>, delim: T)
  {
    forall i :: 0 <= i < |lines| ==> delim !in lines[i]
  }

  /** Repeatedly cut the buffer at its first delimiter until none is left
      (`while b"\n" in buf: line, buf = buf.split(b"\n", 1)`). */
  function Extract<T(==)>(buf: seq<T>, delim: T): (r: Split<T>)
    ensures delim !in r.rest
    ensures NoDelim(r.lines, delim)
    ensures Join(r.lines, delim) + r.rest == buf
    decreases |buf|
  {
    var i := IndexOf(buf, delim);
    if i == |buf| then Split([], buf)
    else
      var tail := Extract(buf[i + 1..], delim);
      var lines := [buf[..i]] + tail.lines;
      ExtractStep(buf, i, delim, tail);
      Split(lines, tail.rest)
  }

  lemma ExtractStep<T>(buf: seq<T>, i: nat, delim: T, tail: Split<T>)
    requires i < |buf| && buf[i] == delim && delim !in buf[..i]
    requires NoDelim(tail.lines, delim)
    requires Join(tail.lines, delim) + tail.rest == buf[i + 1..]
    ensures NoDelim([buf[..i]] + tail.lines, delim)
    ensures Join([buf[..i]] + tail.lines, delim) + tail.rest == buf
  {
    var lines := [buf[..i]] + tail.lines;
    assert lines[0] == buf[..i];
    assert lines[1..] == tail.lines;
    assert buf == buf[..i] + [delim] + buf[i + 1..];
  }

  /** A buffer decomposes into delimiter-free lines and a delimiter-free
      remainder in exactly one way, and `Extract` finds it. */
  lemma {:induction false} ExtractUnique<T>(lines: seq<seq<T>>, rest: seq<T>, delim: T)
    requires NoDelim(lines, delim)
    requires delim !in rest
    ensures Extract(Join(lines, delim) + rest, delim) == Split(lines, rest)
    decreases |lines|
  {
    var buf := Join(lines, delim) + rest;
    if lines == [] {
      assert buf == rest;
    } else {
      var line := lines[0];
      var tailBuf := Join(lines[1..], delim) + rest;
      assert buf == line + [delim] + tailBuf;
      var i := IndexOf(buf, delim);
      assert forall j :: 0 <= j < |line| ==> buf[j] == line[j];
      assert delim !in line;
      assert buf[|line|] == delim;
      assert i == |line|;
      assert buf[..i] == line;
      assert buf[i + 1..] == tailBuf;
      ExtractUnique(lines[1..], rest, delim);
      assert [line] + lines[1..] == lines;
    }
  }

  lemma {:induction false} JoinAppend<T>(a: seq<seq<T>>, b: seq<seq<T>>, delim: T)
    ensures Join(a + b, delim) == Join(a, delim) + Join(b, delim)
    decreases |a|
  {
    if a == [] {
      assert a + b == b;
    } else {
      assert (a + b)[1..] == a[1..] + b;
      JoinAppend(a[1..], b, delim);
    }
  }

  /** Extracting lines from `x + y` is extracting them from `x` and then
      from what `x` left over followed by `y`. */
  lemma ExtractAppend<T>(x: seq<T>, y: seq<T>, delim: T)
    ensures var a := Extract(x, delim);
            var b := Extract(a.rest + y, delim);
            Extract(x + y, delim) == Split(a.lines + b.lines, b.rest)
  {
    var a := Extract(x, delim);
    var b := Extract(a.rest + y, delim);
    JoinAppend(a.lines, b.lines, delim);
    calc {
      Join(a.lines + b.lines, delim) + b.rest;
      Join(a.lines, delim) + (Join(b.lines, delim) + b.rest);
      Join(a.lines, delim) + (a.rest + y);
      x + y;
    }
    assert NoDelim(a.lines + b.lines, delim) by {
      forall i | 0 <= i < |a.lines + b.lines|
        ensures delim !in (a.lines + b.lines)[i]
      {
        if i < |a.lines| { assert (a.lines + b.lines)[i] == a.lines[i]; }
        else { assert (a.lines + b.lines)[i] == b.lines[i - |a.lines|]; }
      }
    }
    ExtractUnique(a.lines + b.lines, b.rest, delim);
  }

  /** Framing a sequence of received chunks starting from buffer `buf`:
      each chunk is appended to the buffer and the complete lines are cut. */
  function FeedAll<T(==)>(buf: seq<T>, chunks: seq<seq<T>>, delim: T): Split<T>
    decreases |chunks|
  {
    if chunks == [] then Split([], buf)
    else
      var s := Extract(buf + chunks[0], delim);
      var t := FeedAll(s.rest, chunks[1..], delim);
      Split(s.lines + t.lines, t.rest)
  }

  /** Feeding chunks one by one yields what framing the whole stream at once
      yields: the lines, in order, and the same left-over partial line. */
  lemma {:induction false} FeedAllIsExtract<T>(buf: seq<T>, chunks: seq<seq<T>>, delim: T)
    requires delim !in buf
    ensures FeedAll(buf, chunks, delim) == Extract(buf + Concat(chunks), delim)
    decreases |chunks|
  {
    if chunks == [] {
      assert buf + Concat(chunks) == buf;
      ExtractUnique([], buf, delim);
    } else {
      var x, y := buf + chunks[0], Concat(chunks[1..]);
      var s := Extract(x, delim);
      FeedAllIsExtract(s.rest, chunks[1..], delim);
      assert Concat(chunks) == chunks[0] + y;
      Assoc(buf, chunks[0], y);
      ExtractAppend(x, y, delim);
    }
  }


  /** Fragmentation invariance: two ways of cutting the same stream into
      chunks frame it into the same lines and the same remainder, and the
      remainder never holds a delimiter. */
  lemma FragmentationInvariance<T>(c1: seq<seq<T>>, c2: seq<seq<T>>, delim: T)
    requires Concat(c1) == Concat(c2)
    ensures FeedAll([], c1, delim) == FeedAll([], c2, delim)
    ensures delim !in FeedAll([], c1, delim).rest
  {
    FeedAllIsExtract([], c1, delim);
    FeedAllIsExtract([], c2, delim);
  }

  // ----- helper -----
  // Concatenation is associative; naming the instance keeps the proofs
  // above small.

  lemma Assoc<T>(a: seq<T>, b: seq<T>, c: seq<T>)
    ensures a + b + c == a + (b + c)
  {
  }
}

=== FILE: jsnumber.dfy ===
/** JavaScript's `Number(string)` (StringToNumber, section 7.1.4.1.1 of
    ECMA-262) and what `x || undefined` keeps of the result.  A literal's
    value is kept as the exact rational `±mantissa × 10^scale`.  Rounding
    that value to a double is followed only as far as it decides what the
    renderer sends:
    - a value that rounds to zero is falsy;
    - a value that rounds to ±Infinity is written by `JSON.stringify` as
      `null`;
    - an integer of magnitude at most 2^53 is held exactly.
    Every other finite value is classified, but not rounded.
 */
module JsNumber {

  import opened Values
  import opened Decimal
  import opened Text

  /** The mathematical value of a StringNumericLiteral, or NaN. */
  datatype Number = NaN | Infinity(negative: bool) | Finite(negative: bool, mantissa: nat, scale: int)

  /** What `Number(word) || undefined` keeps:
      - `Undefined` when the number is NaN or rounds to ±0;
      - `Exact(n)` when it is a non-zero integer a double holds exactly;
      - `Infinite` when it rounds to ±Infinity;
      - `Inexact` for any other finite double, which the model does not
        follow further. */
  datatype Kept = Undefined | Exact(n: int) | Infinite(negative: bool) | Inexact

  /** 2^53: every integer up to this magnitude is a double. */
  const MaxExact: nat := 9007199254740992

  /** 2^1024 - 2^970, halfway between the largest finite double and 2^1024:
      from this magnitude on, round-to-nearest-even gives Infinity. */
  const Overflow: nat := 179769313486231580793728971405303415079934132710037826936173778980444968292764750946649017977587207096330286416692887910946555547851940402630657488671505820681908902000708383676273854845817711531764475730270069855571366959622842914819860834936475292719074168444365510704342711559699508093042880177904174497792

  /** 2^1075: a magnitude at or below 2^-1075, half the least positive
      double, rounds to zero. */
  const Underflow: nat := 404804506614621236704990693437834614099113299528284236713802716054860679135990693783920767402874248990374155728633623822779617474771586953734026799881477019843034848553132722728933815484186432682479535356945490137124014966849385397236206711298319112681620113024717539104666829230461005064372655017292012526615415482186989568

  /** `m × 10^e`. */
  function Shift(m: nat, e: nat): nat
  {
    if e == 0 then m else 10 * Shift(m, e - 1)
  }

  /** `m / 10^e`, rounded down. */
  function Unshift(m: nat, e: nat): nat
  {
    if e == 0 then m else Unshift(m / 10, e - 1)
  }

  /** Whether `10^e` divides `m`. */
  predicate Divisible(m: nat, e: nat)
  {
    e == 0 || (m % 10 == 0 && Divisible(m / 10, e - 1))
  }

  /** Every integer among the properties is one a double holds exactly,
      which `JSON.stringify` writes as its decimal numeral. */
  predicate ExactInts(f: Fields)
  {
    forall k :: 0 <= k < |f| ==> f[k].1.VInt? ==> -(MaxExact as int) <= f[k].1.i <= MaxExact
  }

  // ----- the grammar -----

  predicate IsExponentMark(c: char)
  {
    c == 'e' || c == 'E'
  }

  /** Index of the first `e` or `E`, or the length when there is none. */
  function FindExponent(s: string): (k: nat)
    ensures k <= |s|
    ensures forall j :: 0 <= j < k ==> !IsExponentMark(s[j])
    ensures k < |s| ==> IsExponentMark(s[k])
  {
    if s == [] || IsExponentMark(s[0]) then 0 else 1 + FindExponent(s[1..])
  }

  /** Index of the first `.`, or the length when there is none. */
  function FindPoint(s: string): (k: nat)
    ensures k <= |s|
    ensures forall j :: 0 <= j < k ==> s[j] != '.'
    ensures k < |s| ==> s[k] == '.'
  {
    if s == [] || s[0] == '.' then 0 else 1 + FindPoint(s[1..])
  }

  /** The part before the exponent: digits with an optional point, at
      least one digit in all.  The result is the value of all the digits
      and the number of them after the point. */
  function Mantissa(m: string): (r: Option<(nat, nat)>)
    ensures r.Some? ==> m != [] && (IsDigit(m[0]) || m[0] == '.')
  {
    var p := FindPoint(m);
    var whole := m[..p];
    var fraction := if p < |m| then m[p + 1..] else [];
    if (|whole| > 0 || |fraction| > 0) && AllDigits(whole) && AllDigits(fraction) then
      assert whole != [] ==> m[0] == whole[0];
      Some((DigitsValue(whole + fraction), |fraction|))
    else None
  }

  /** StrUnsignedDecimalLiteral other than `Infinity`: a mantissa, then an
      optional exponent `e`/`E` with an optional sign and digits.  The
      result is the mantissa's digits and the power of ten that scales them. */
  function UnsignedDecimal(s: string): (r: Option<(nat, int)>)
    ensures r.Some? ==> s != [] && (IsDigit(s[0]) || s[0] == '.')
  {
    var k := FindExponent(s);
    var ex := if k == |s| then Some(0) else ParseSigned(s[k + 1..]);
    var mt := Mantissa(s[..k]);
    if ex.Some? && mt.Some? then
      assert s[0] == s[..k][0];
      Some((mt.value.0, ex.value - mt.value.1))
    else None
  }

  /** The digits of radix 2, 8 and 16 (either case). */
  function RadixDigit(c: char, radix: nat): Option<nat>
  {
    var d := if '0' <= c <= '9' then c as int - '0' as int
             else if 'a' <= c <= 'f' then c as int - 'a' as int + 10
             else if 'A' <= c <= 'F' then c as int - 'A' as int + 10
             else 16;
    if d < radix then Some(d as nat) else None
  }

  /** The value of a non-empty run of radix digits, or nothing. */
  function RadixValue(s: string, radix: nat): Option<nat>
  {
    if s == [] then None
    else
      var d := RadixDigit(s[|s| - 1], radix);
      if d.None? then None
      else if |s| == 1 then d
      else
        match RadixValue(s[..|s| - 1], radix)
        case None => None
        case Some(v) => Some(radix * v + d.value)
  }

  /** The radix a NonDecimalIntegerLiteral prefix names: `0b`, `0o`, `0x`. */
  function Radix(c: char): nat
  {
    if c == 'b' || c == 'B' then 2
    else if c == 'o' || c == 'O' then 8
    else if c == 'x' || c == 'X' then 16
    else 0
  }

  /** StringToNumber: white space around the literal is ignored, an empty
      literal is 0, a decimal literal may carry a sign, a binary, octal or
      hexadecimal one may not, and anything else is NaN. */
  function ToNumber(str: string): (x: Number)
  {
    var s := Trim(str, JsSpace);
    if s == [] then Finite(false, 0, 0)
    else if |s| > 2 && s[0] == '0' && Radix(s[1]) > 0 then
      match RadixValue(s[2..], Radix(s[1]))
      case Some(v) => Finite(false, v, 0)
      case None => NaN
    else
      var negative := s[0] == '-';
      var body := if s[0] == '+' || s[0] == '-' then s[1..] else s;
      if body == "Infinity" then Infinity(negative)
      else
        match UnsignedDecimal(body)
        case Some((m, e)) => Finite(negative, m, e)
        case None => NaN
  }

  /** A word that starts with a lower-case letter is not a number: the
      literal `Infinity` is spelled with a capital, and every other numeric
      form starts with a sign, a digit or a point. */
  lemma LetterIsNaN(str: string)
    requires str != [] && 'a' <= str[0] <= 'z'
    ensures ToNumber(str) == NaN
  {
    var s := Trim(str, JsSpace);
    assert !JsSpace(str[0]);
    assert SkipSpace(str, 0, JsSpace) == 0;
    assert s != [] && s[0] == str[0];
  }

  // ----- what `|| undefined` keeps -----

  /** The integer `±v` as a double and then through `|| undefined`: the
      reference the whole classification is measured against. */
  function IntegerKept(negative: bool, v: nat): (r: Kept)
    ensures r.Exact? ==> r.n != 0 && -(MaxExact as int) <= r.n <= MaxExact
  {
    if v == 0 then Undefined
    else if v <= MaxExact then Exact(if negative then -(v as int) else v)
    else if v >= Overflow then Infinite(negative)
    else Inexact
  }

  /** `x || undefined` for the double nearest `x`: zero and NaN are falsy. */
  function KeepTruthy(x: Number): (r: Kept)
    ensures r.Exact? ==> r.n != 0 && -(MaxExact as int) <= r.n <= MaxExact
    ensures x.NaN? ==> r == Undefined
    ensures x.Infinity? ==> r == Infinite(x.negative)
    ensures x.Finite? && x.mantissa == 0 ==> r == Undefined
  {
    match x
    case NaN => Undefined
    case Infinity(negative) => Infinite(negative)
    case Finite(negative, m, scale) =>
      if m == 0 then Undefined
      else if scale >= 0 then IntegerKept(negative, Shift(m, scale))
      else
        var e := -scale;
        if Divisible(m, e) then IntegerKept(negative, Unshift(m, e))
        else if m * Underflow <= Shift(1, e) then Undefined
        else if m >= Overflow * Shift(1, e) then Infinite(negative)
        else Inexact
  }

  /** `Number(word) || undefined`.  A signed decimal integer word is
      classified by its value (`DecimalIntegerKept`). */
  function NumberOr(word: string): (k: Kept)
    ensures ParseSigned(word).Some? ==>
              var n := ParseSigned(word).value;
              k == IntegerKept(n < 0, if n < 0 then -n else n)
  {
    match ParseSigned(word)
    case Some(n) =>
      DecimalIntegerKept(word, n);
      KeepTruthy(ToNumber(word))
    case None => KeepTruthy(ToNumber(word))
  }

  // ----- properties -----

  /** A signed decimal integer is read as that integer. */
  lemma DecimalIntegerNumber(s: string, n: int)
    requires ParseSigned(s) == Some(n)
    ensures var x := ToNumber(s);
            x.Finite? && x.scale == 0 && x.mantissa == (if n < 0 then -n else n)
            && (n < 0 ==> x.negative) && (n > 0 ==> !x.negative)
  {
    var body := if s[0] == '+' || s[0] == '-' then s[1..] else s;
    assert body != [] && AllDigits(body);
    assert n == if s[0] == '-' then -(DigitsValue(body) as int) else DigitsValue(body);
    SignedToNumber(s, body);
  }

  /** The number of a sign, or nothing, and then digits. */
  lemma SignedToNumber(s: string, body: string)
    requires body != [] && AllDigits(body)
    requires body == (if s != [] && (s[0] == '+' || s[0] == '-') then s[1..] else s)
    ensures ToNumber(s) == Finite(s[0] == '-', DigitsValue(body), 0)
  {
    SignedNoSpace(s, body);
    TrimNoSpace(s, JsSpace);
    assert !(|s| > 2 && s[0] == '0' && Radix(s[1]) > 0) by {
      if |s| > 2 && s[0] == '0' {
        assert IsDigit(s[1]);
      }
    }
    assert body != "Infinity" by { assert !IsDigit('I'); }
    DigitsUnsigned(body);
  }

  /** A sign, or nothing, and then digits hold no white space. */
  lemma SignedNoSpace(s: string, body: string)
    requires body != [] && AllDigits(body)
    requires body == s || (s != [] && (s[0] == '+' || s[0] == '-') && body == s[1..])
    ensures forall k :: 0 <= k < |s| ==> !JsSpace(s[k])
  {
    forall k | 0 <= k < |s| ensures !JsSpace(s[k]) {
      if body != s && k > 0 {
        assert s[k] == body[k - 1];
      }
    }
  }

  /** A run of digits is an unsigned decimal literal with scale 0. */
  lemma DigitsUnsigned(body: string)
    requires body != [] && AllDigits(body)
    ensures UnsignedDecimal(body) == Some((DigitsValue(body), 0))
  {
    assert forall j :: 0 <= j < |body| ==> !IsExponentMark(body[j]);
    assert FindExponent(body) == |body|;
    assert body[..|body|] == body;
    DigitsMantissa(body);
  }

  lemma DigitsMantissa(body: string)
    requires body != [] && AllDigits(body)
    ensures Mantissa(body) == Some((DigitsValue(body), 0))
  {
    assert forall j :: 0 <= j < |body| ==> body[j] != '.';
    assert FindPoint(body) == |body|;
    assert body[..|body|] == body && body + [] == body;
  }

  /** `Number(word) || undefined` on a decimal integer agrees with the
      reference: zero (either sign) is dropped, magnitudes up to 2^53 are
      kept exactly, magnitudes from the overflow bound on are ±Infinity,
      and those in between are rounded. */
  lemma DecimalIntegerKept(s: string, n: int)
    requires ParseSigned(s) == Some(n)
    ensures KeepTruthy(ToNumber(s)) == IntegerKept(n < 0, if n < 0 then -n else n)
  {
    DecimalIntegerNumber(s, n);
    var x := ToNumber(s);
    if x.mantissa != 0 {
      assert KeepTruthy(x) == IntegerKept(x.negative, x.mantissa);
    }
  }

  /** In particular, the numeral of an integer typed as the speed. */
  lemma NumeralKept(n: int)
    ensures NumberOr(IntText(n)) == IntegerKept(n < 0, if n < 0 then -n else n)
  {
    ParseIntText(n);
  }
}

=== FILE: jsontext.dfy ===
/** JSON text for flat objects: the compact form `JSON.stringify` writes
    (no whitespace, keys in property order, strings escaped as ECMA-262
    `QuoteJSONString` does), and a reader for that form, as a conforming
    peer would read it.  The reader accepts integers only (no fraction or
    exponent) and no insignificant whitespace.
 */
module JsonText {

  import opened Values
  import opened Decimal
  import opened Framing

  const HexDigits: string := "0123456789abcdef"

  function HexChar(d: nat): (c: char)
    requires d < 16
  {
    HexDigits[d]
  }

  /** The escaped form of one character inside a JSON string literal. */
  function Escape(c: char): (e: string)
    ensures |e| > 0
    ensures forall i :: 0 <= i < |e| ==> e[i] >= ' '
    ensures e[0] != '"'
  {
    if c == '"' then "\\\""
    else if c == '\\' then "\\\\"
    else if c == '\U{8}' then "\\b"
    else if c == '\t' then "\\t"
    else if c == '\n' then "\\n"
    else if c == '\U{C}' then "\\f"
    else if c == '\r' then "\\r"
    else if c < ' ' then "\\u00" + [HexChar(c as int / 16), HexChar(c as int % 16)]
    else [c]
  }

  function EscapeAll(s: string): string
  {
    if s == [] then [] else Escape(s[0]) + EscapeAll(s[1..])
  }

  /** A JSON string literal. */
  function Quote(s: string): (q: string)
    ensures |q| >= 2 && q[0] == '"'
  {
    "\"" + EscapeAll(s) + "\""
  }

  function Render(v: Value): (t: string)
    ensures |t| > 0
  {
    match v
    case VInt(n) => IntText(n)
    case VStr(s) => Quote(s)
    case VBool(b) => if b then "true" else "false"
    case VNull => "null"
  }

  function Member(m: (string, Value)): string
  {
    Quote(m.0) + ":" + Render(m.1)
  }

  function Members(f: Fields): string
  {
    if f == [] then ""
    else if |f| == 1 then Member(f[0])
    else Member(f[0]) + "," + Members(f[1..])
  }

  /** `JSON.stringify` of an object whose properties are `f`: one line of
      printable text, so it never contains the newline that frames it. */
  function Stringify(f: Fields): (t: string)
    ensures |t| >= 2 && t[0] == '{' && t[|t| - 1] == '}'
    ensures Printable(t)
    ensures '\n' !in t
  {
    MembersPrintable(f);
    PrintableAppend("{", Members(f));
    PrintableAppend("{" + Members(f), "}");
    "{" + Members(f) + "}"
  }

  /** No control characters: every character is at least a space. */
  predicate Printable(t: string)
  {
    forall i :: 0 <= i < |t| ==> t[i] >= ' '
  }

  lemma {:induction false} EscapeAllPrintable(s: string)
    ensures Printable(EscapeAll(s))
    decreases |s|
  {
    if s != [] {
      EscapeAllPrintable(s[1..]);
      PrintableAppend(Escape(s[0]), EscapeAll(s[1..]));
    }
  }

  lemma RenderPrintable(v: Value)
    ensures Printable(Render(v))
  {
    match v
    case VInt(n) =>
      var t := IntText(n);
      assert forall i :: 0 <= i < |t| ==> t[i] == '-' || IsDigit(t[i]) by {
        if n < 0 { assert forall i :: 1 <= i < |t| ==> t[i] == NatText(-n)[i - 1]; }
      }
    case VStr(str) =>
      EscapeAllPrintable(str);
      PrintableAppend("\"", EscapeAll(str));
      PrintableAppend("\"" + EscapeAll(str), "\"");
    case _ =>
  }

  lemma MemberPrintable(m: (string, Value))
    ensures Printable(Member(m))
  {
    RenderPrintable(VStr(m.0));
    RenderPrintable(m.1);
    PrintableAppend(Quote(m.0), ":");
    PrintableAppend(Quote(m.0) + ":", Render(m.1));
  }

  lemma {:induction false} MembersPrintable(f: Fields)
    ensures Printable(Members(f))
    decreases |f|
  {
    if |f| == 1 {
      MemberPrintable(f[0]);
    } else if |f| > 1 {
      MemberPrintable(f[0]);
      MembersPrintable(f[1..]);
      PrintableAppend(Member(f[0]), ",");
      PrintableAppend(Member(f[0]) + ",", Members(f[1..]));
    }
  }

  // ----- reading -----

  predicate IsHex(c: char)
  {
    '0' <= c <= '9' || 'a' <= c <= 'f' || 'A' <= c <= 'F'
  }

  function HexValue(c: char): (d: nat)
    requires IsHex(c)
    ensures d < 16
  {
    if c <= '9' then (c as int - '0' as int) as nat
    else if c <= 'F' then (c as int - 'A' as int + 10) as nat
    else (c as int - 'a' as int + 10) as nat
  }

  /** The character a two-character escape `\x` stands for. */
  function ShortEscape(c: char): Option<char>
  {
    if c == '"' then Some('"')
    else if c == '\\' then Some('\\')
    else if c == '/' then Some('/')
    else if c == 'b' then Some('\U{8}')
    else if c == 'f' then Some('\U{C}')
    else if c == 'n' then Some('\n')
    else if c == 'r' then Some('\r')
    else if c == 't' then Some('\t')
    else None
  }

  /** The characters of a string literal after its opening quote, up to the
      closing quote; the rest of the input follows. */
  function ReadStringBody(s: string): (r: Option<(string, string)>)
    ensures r.Some? ==> |r.value.1| < |s|
    decreases |s|
  {
    if s == [] then None
    else if s[0] == '"' then Some(([], s[1..]))
    else if s[0] == '\\' then
      if |s| < 2 then None
      else if s[1] == 'u' then
        if |s| < 6 || !(IsHex(s[2]) && IsHex(s[3]) && IsHex(s[4]) && IsHex(s[5])) then None
        else
          var code := HexValue(s[2]) * 4096 + HexValue(s[3]) * 256 + HexValue(s[4]) * 16 + HexValue(s[5]);
          if 0xD800 <= code < 0xE000 then None
          else match ReadStringBody(s[6..])
            case None => None
            case Some(tail) => Some(([code as char] + tail.0, tail.1))
      else match ShortEscape(s[1])
        case None => None
        case Some(c) =>
          match ReadStringBody(s[2..])
          case None => None
          case Some(tail) => Some(([c] + tail.0, tail.1))
    else if s[0] < ' ' then None
    else match ReadStringBody(s[1..])
      case None => None
      case Some(tail) => Some(([s[0]] + tail.0, tail.1))
  }

  function ReadString(s: string): (r: Option<(string, string)>)
    ensures r.Some? ==> |r.value.1| < |s|
  {
    if |s| > 0 && s[0] == '"' then ReadStringBody(s[1..]) else None
  }

  /** Length of the run of digits `s` starts with. */
  function DigitRun(s: string): (k: nat)
    ensures k <= |s| && AllDigits(s[..k])
    ensures k < |s| ==> !IsDigit(s[k])
  {
    if s == [] || !IsDigit(s[0]) then 0
    else
      var k := 1 + DigitRun(s[1..]);
      assert forall i :: 1 <= i < k ==> s[..k][i] == s[1..][..k - 1][i - 1];
      k
  }

  /** The unsigned part of a JSON integer: `0|[1-9][0-9]*`, not followed
      by a fraction or an exponent. */
  function ReadNumeral(t: string): (r: Option<(nat, string)>)
    ensures r.Some? ==> |r.value.1| < |t|
  {
    var k := DigitRun(t);
    if k == 0 || (k > 1 && t[0] == '0') || (k < |t| && StartsFraction(t[k])) then None
    else Some((DigitsValue(t[..k]), t[k..]))
  }

  /** The first character of a fraction or an exponent part. */
  predicate StartsFraction(c: char)
  {
    c == '.' || c == 'e' || c == 'E'
  }

  /** A JSON number that is an integer: `-?(0|[1-9][0-9]*)`. */
  function ReadInt(s: string): (r: Option<(int, string)>)
    ensures r.Some? ==> |r.value.1| < |s|
  {
    if |s| > 0 && s[0] == '-' then
      match ReadNumeral(s[1..])
      case None => None
      case Some(p) => Some((-(p.0 as int), p.1))
    else
      match ReadNumeral(s)
      case None => None
      case Some(p) => Some((p.0 as int, p.1))
  }

  predicate StartsWith(s: string, p: string)
  {
    |p| <= |s| && forall i :: 0 <= i < |p| ==> s[i] == p[i]
  }

  function ReadValue(s: string): (r: Option<(Value, string)>)
    ensures r.Some? ==> |r.value.1| < |s|
  {
    if StartsWith(s, "true") then Some((VBool(true), s[4..]))
    else if StartsWith(s, "false") then Some((VBool(false), s[5..]))
    else if StartsWith(s, "null") then Some((VNull, s[4..]))
    else if |s| > 0 && s[0] == '"' then
      match ReadString(s)
      case None => None
      case Some(p) => Some((VStr(p.0), p.1))
    else
      match ReadInt(s)
      case None => None
      case Some(p) => Some((VInt(p.0), p.1))
  }

  function ReadMember(s: string): (r: Option<((string, Value), string)>)
    ensures r.Some? ==> |r.value.1| < |s|
  {
    match ReadString(s)
    case None => None
    case Some(k) =>
      if |k.1| == 0 || k.1[0] != ':' then None
      else
        match ReadValue(k.1[1..])
        case None => None
        case Some(v) => Some(((k.0, v.0), v.1))
  }

  /** Members separated by commas, up to and including the closing brace. */
  function ReadMembers(s: string): (r: Option<(Fields, string)>)
    decreases |s|
  {
    match ReadMember(s)
    case None => None
    case Some(m) =>
      if |m.1| > 0 && m.1[0] == '}' then Some(([m.0], m.1[1..]))
      else if |m.1| > 0 && m.1[0] == ',' then
        match ReadMembers(m.1[1..])
        case None => None
        case Some(tail) => Some(([m.0] + tail.0, tail.1))
      else None
  }

  /** The properties of the object a whole text denotes. */
  function ReadObject(s: string): Option<Fields>
  {
    if s == "{}" then Some([])
    else if |s| > 0 && s[0] == '{' then
      match ReadMembers(s[1..])
      case Some(p) => if p.1 == [] then Some(p.0) else None
      case None => None
    else None
  }

  // ----- round trip -----

  lemma HexRoundTrip(d: nat)
    requires d < 16
    ensures IsHex(HexChar(d)) && HexValue(HexChar(d)) == d
  {
  }

  /** Reading an escaped character gives the character back and continues
      with what follows it. */
  lemma ReadEscape(c: char, tail: string)
    ensures ReadStringBody(Escape(c) + tail) ==
              match ReadStringBody(tail)
              case None => None
              case Some(t) => Some(([c] + t.0, t.1))
  {
    var s := Escape(c) + tail;
    if c == '"' || c == '\\' || c == '\U{8}' || c == '\t' || c == '\n' || c == '\U{C}' || c == '\r' {
      assert s[2..] == tail;
    } else if c < ' ' {
      var hi, lo := c as int / 16, c as int % 16;
      HexRoundTrip(hi);
      HexRoundTrip(lo);
      assert s[..6] == ['\\', 'u', '0', '0', HexChar(hi), HexChar(lo)];
      assert s[6..] == tail;
      assert HexValue(s[2]) * 4096 + HexValue(s[3]) * 256 + HexValue(s[4]) * 16 + HexValue(s[5]) == c as int;
    } else {
      assert s[1..] == tail;
    }
  }

  lemma {:induction false} ReadQuoted(str: string, rest: string)
    ensures ReadStringBody(EscapeAll(str) + "\"" + rest) == Some((str, rest))
    decreases |str|
  {
    var s := EscapeAll(str) + "\"" + rest;
    if str == [] {
      assert s == "\"" + rest;
      assert s[0] == '"' && s[1..] == rest;
    } else {
      var tail := EscapeAll(str[1..]) + "\"" + rest;
      assert EscapeAll(str) == Escape(str[0]) + EscapeAll(str[1..]);
      assert s == Escape(str[0]) + tail;
      ReadQuoted(str[1..], rest);
      ReadEscape(str[0], tail);
      assert [str[0]] + str[1..] == str;
    }
  }

  /** What may follow a value in an object: a separator or the closing brace. */
  predicate FollowsValue(rest: string)
  {
    |rest| > 0 && (rest[0] == ',' || rest[0] == '}')
  }

  lemma {:induction false} DigitRunOfNumeral(digits: string, rest: string)
    requires AllDigits(digits)
    requires rest == [] || !IsDigit(rest[0])
    ensures DigitRun(digits + rest) == |digits|
    decreases |digits|
  {
    if digits != [] {
      assert (digits + rest)[1..] == digits[1..] + rest;
      DigitRunOfNumeral(digits[1..], rest);
    } else {
      assert digits + rest == rest;
    }
  }

  /** The digits of a magnitude followed by a separator read back as it. */
  lemma ReadNatText(m: nat, rest: string)
    requires FollowsValue(rest)
    ensures ReadNumeral(NatText(m) + rest) == Some((m, rest))
  {
    var mag := NatText(m);
    var t := mag + rest;
    DigitRunOfNumeral(mag, rest);
    assert t[..|mag|] == mag;
    assert t[|mag|..] == rest;
    assert t[|mag|] == rest[0];
    assert |mag| > 1 ==> t[0] == mag[0];
  }

  lemma ReadNegativeText(m: nat, rest: string)
    requires FollowsValue(rest)
    ensures ReadInt("-" + NatText(m) + rest) == Some((-(m as int), rest))
  {
    var s := "-" + NatText(m) + rest;
    Assoc("-", NatText(m), rest);
    assert s[0] == '-' && s[1..] == NatText(m) + rest;
    ReadNatText(m, rest);
  }

  lemma ReadNonNegativeText(m: nat, rest: string)
    requires FollowsValue(rest)
    ensures ReadInt(NatText(m) + rest) == Some((m, rest))
  {
    var s := NatText(m) + rest;
    assert s[0] == NatText(m)[0];
    ReadNatText(m, rest);
  }

  lemma ReadIntText(n: int, rest: string)
    requires FollowsValue(rest)
    ensures ReadInt(IntText(n) + rest) == Some((n, rest))
  {
    if n < 0 {
      ReadNegativeText(-n, rest);
    } else {
      ReadNonNegativeText(n, rest);
    }
  }

  /** A text that starts a number is read as a number. */
  lemma ReadValueNumber(s: string)
    requires |s| > 0 && (s[0] == '-' || IsDigit(s[0]))
    ensures ReadValue(s) == match ReadInt(s)
                            case None => None
                            case Some(p) => Some((VInt(p.0), p.1))
  {
    assert !StartsWith(s, "true") by { assert "true"[0] == 't'; }
    assert !StartsWith(s, "false") by { assert "false"[0] == 'f'; }
    assert !StartsWith(s, "null") by { assert "null"[0] == 'n'; }
  }

  /** A text that starts with a quote is read as a string. */
  lemma ReadValueString(s: string)
    requires |s| > 0 && s[0] == '"'
    ensures ReadValue(s) == match ReadString(s)
                            case None => None
                            case Some(p) => Some((VStr(p.0), p.1))
  {
    assert !StartsWith(s, "true") by { assert "true"[0] == 't'; }
    assert !StartsWith(s, "false") by { assert "false"[0] == 'f'; }
    assert !StartsWith(s, "null") by { assert "null"[0] == 'n'; }
  }

  lemma ReadRenderedInt(n: int, rest: string)
    requires FollowsValue(rest)
    ensures ReadValue(Render(VInt(n)) + rest) == Some((VInt(n), rest))
  {
    var s := IntText(n) + rest;
    assert Render(VInt(n)) == IntText(n);
    assert s[0] == '-' || IsDigit(s[0]) by {
      if n >= 0 { assert IntText(n) == NatText(n); assert s[0] == NatText(n)[0]; }
    }
    ReadValueNumber(s);
    ReadIntText(n, rest);
  }

  lemma ReadRenderedStr(str: string, rest: string)
    ensures ReadValue(Render(VStr(str)) + rest) == Some((VStr(str), rest))
  {
    var s := Render(VStr(str)) + rest;
    assert s == "\"" + (EscapeAll(str) + "\"" + rest);
    assert s[1..] == EscapeAll(str) + "\"" + rest;
    ReadValueString(s);
    ReadQuoted(str, rest);
  }

  lemma ReadRenderedWord(v: Value, rest: string)
    requires v.VBool? || v.VNull?
    ensures ReadValue(Render(v) + rest) == Some((v, rest))
  {
    var s := Render(v) + rest;
    if v == VBool(true) {
      assert s[..4] == "true" && s[4..] == rest;
      assert StartsWith(s, "true");
    } else if v == VBool(false) {
      assert s[..5] == "false" && s[5..] == rest;
      assert !StartsWith(s, "true") by { assert s[0] == 'f'; }
      assert StartsWith(s, "false");
    } else {
      assert s[..4] == "null" && s[4..] == rest;
      assert !StartsWith(s, "true") by { assert s[0] == 'n'; }
      assert !StartsWith(s, "false") by { assert s[0] == 'n'; }
      assert StartsWith(s, "null");
    }
  }

  lemma ReadRendered(v: Value, rest: string)
    requires FollowsValue(rest)
    ensures ReadValue(Render(v) + rest) == Some((v, rest))
  {
    match v
    case VInt(n) => ReadRenderedInt(n, rest);
    case VStr(str) => ReadRenderedStr(str, rest);
    case _ => ReadRenderedWord(v, rest);
  }

  /** A member's text is a quoted key, then a colon and the value. */
  lemma MemberShape(m: (string, Value), rest: string)
    ensures var s := Member(m) + rest;
            |s| > 0 && s[0] == '"' && s[1..] == EscapeAll(m.0) + "\"" + (":" + Render(m.1) + rest)
  {
    assert Member(m) == "\"" + EscapeAll(m.0) + "\"" + ":" + Render(m.1);
    Regroup6("\"", EscapeAll(m.0), "\"", ":", Render(m.1), rest);
  }


  lemma ReadMemberText(m: (string, Value), rest: string)
    requires FollowsValue(rest)
    ensures ReadMember(Member(m) + rest) == Some((m, rest))
  {
    var s := Member(m) + rest;
    var after := ":" + Render(m.1) + rest;
    MemberShape(m, rest);
    ReadQuoted(m.0, after);
    assert ReadString(s) == Some((m.0, after));
    assert after[0] == ':' && after[1..] == Render(m.1) + rest;
    ReadRendered(m.1, rest);
    assert ReadMember(s) == Some((m, rest));
  }

  /** The last member, then the closing brace. */
  lemma ReadLastMember(m: (string, Value), rest: string)
    ensures ReadMembers(Member(m) + ("}" + rest)) == Some(([m], rest))
  {
    ReadMemberText(m, "}" + rest);
    assert ("}" + rest)[1..] == rest;
  }

  /** A member, a comma, and members that read back as `more`. */
  lemma ReadNextMember(m: (string, Value), tail: string, more: Fields, rest: string)
    requires ReadMembers(tail) == Some((more, rest))
    ensures ReadMembers(Member(m) + ("," + tail)) == Some(([m] + more, rest))
  {
    ReadMemberText(m, "," + tail);
    assert ("," + tail)[1..] == tail;
  }


  lemma MembersShapeOne(f: Fields, rest: string)
    requires |f| == 1
    ensures Members(f) + "}" + rest == Member(f[0]) + ("}" + rest)
  {
    assert Members(f) == Member(f[0]);
    Assoc(Member(f[0]), "}", rest);
  }

  lemma MembersShapeMore(f: Fields, rest: string)
    requires |f| > 1
    ensures Members(f) + "}" + rest == Member(f[0]) + ("," + (Members(f[1..]) + "}" + rest))
  {
    assert Members(f) == Member(f[0]) + "," + Members(f[1..]);
    Regroup(Member(f[0]), ",", Members(f[1..]), "}", rest);
  }

  lemma {:induction false} ReadMembersText(f: Fields, rest: string)
    requires f != []
    ensures ReadMembers(Members(f) + "}" + rest) == Some((f, rest))
    decreases |f|
  {
    if |f| == 1 {
      MembersShapeOne(f, rest);
      ReadLastMember(f[0], rest);
      assert [f[0]] == f;
    } else {
      var tail := Members(f[1..]) + "}" + rest;
      MembersShapeMore(f, rest);
      ReadMembersText(f[1..], rest);
      ReadNextMember(f[0], tail, f[1..], rest);
      assert [f[0]] + f[1..] == f;
    }
  }

  /** A conforming peer reads back exactly the properties that were written,
      in order. */
  lemma StringifyRoundTrip(f: Fields)
    ensures ReadObject(Stringify(f)) == Some(f)
  {
    var t := Stringify(f);
    if f == [] {
      assert Members(f) == "";
      assert t == "{}";
    } else {
      assert |Members(f)| >= |Member(f[0])| >= 2;
      assert |t| != 2;
      Assoc("{", Members(f), "}");
      assert t[1..] == Members(f) + "}" + [];
      ReadMembersText(f, []);
    }
  }

  // ----- helpers: steps the solver takes once they are named -----
  // Printable text is closed under concatenation, and concatenation is
  // associative; naming the instances keeps the proofs above small.

  lemma PrintableAppend(a: string, b: string)
    requires Printable(a) && Printable(b)
    ensures Printable(a + b)
  {
  }

  lemma Regroup6(a: string, b: string, c: string, d: string, e: string, f: string)
    ensures a + b + c + d + e + f == a + (b + c + (d + e + f))
  {
  }

  lemma Regroup(a: string, b: string, c: string, d: string, e: string)
    ensures a + b + c + d + e == a + (b + (c + d + e))
  {
  }
}

=== FILE: renderer.dfy ===
/** The renderer's command sources (iot-lab-2/electron/index.js): the text
    box handled by `update_data` and the four arrow buttons.  Both turn a
    user gesture into a sequence of `send(cmd, options)` calls, each an
    `ipcRenderer.invoke('pi-move', cmd, options)`, and both finish with a
    `sensors` request that refreshes the panel.
 */
module Renderer {

  import opened Values
  import opened Decimal
  import opened Text
  import JsNumber

  /** One `send(cmd, options)`; a call without options sends `{}`. */
  datatype Request = Request(cmd: string, options: Fields)

  /** What one submit does: the requests sent, in order, and the text put
      in the status line, if any.  `Untracked` is a `forward` or `backward`
      whose typed speed is a finite double other than a non-zero integer of
      at most 2^53: it sends `cmd`, then `sensors`, with a speed whose
      rounding and printing the model does not follow. */
  datatype Submit = Submit(requests: seq<Request>, notice: Option<string>) | Untracked(cmd: string)

  const DefaultForward: int := 40
  const DefaultBackward: int := 30
  const TurnSpeed: int := 35

  const SensorsRequest: Request := Request("sensors", [])
  const StopRequest: Request := Request("stop", [])

  /** The command words `update_data` tells apart, and every other word. */
  datatype Word = Forward | Backward | TurnLeft | TurnRight | Halt | Sensors | Unknown
  {
    /** The words that send a motion command. */
    predicate Moves()
    {
      this !in {Sensors, Unknown}
    }
  }

  /** The spelling of a known word. */
  function Name(w: Word): string
    requires w != Unknown
  {
    match w
    case Forward => "forward"
    case Backward => "backward"
    case TurnLeft => "left"
    case TurnRight => "right"
    case Halt => "stop"
    case Sensors => "sensors"
  }

  /** The chain of `cmd === '...'` tests. */
  function WordOf(cmd: string): Word
  {
    if cmd == "forward" then Forward
    else if cmd == "backward" then Backward
    else if cmd == "left" then TurnLeft
    else if cmd == "right" then TurnRight
    else if cmd == "stop" then Halt
    else if cmd == "sensors" then Sensors
    else Unknown
  }

  // ----- reading the text box -----

  /** `toLowerCase` on one character, for the ASCII letters. */
  function Lower(c: char): char
  {
    if 'A' <= c <= 'Z' then (c as int + 32) as char else c
  }

  function LowerAll(s: string): (r: string)
    ensures |r| == |s| && forall i :: 0 <= i < |s| ==> r[i] == Lower(s[i])
  {
    seq(|s|, i requires 0 <= i < |s| => Lower(s[i]))
  }

  /** Lower-casing neither creates nor removes whitespace. */
  lemma LowerKeepsSpace(c: char)
    ensures JsSpace(Lower(c)) <==> JsSpace(c)
  {
  }

  /** Lower-casing twice is lower-casing once. */
  lemma LowerAllIdempotent(s: string)
    ensures LowerAll(LowerAll(s)) == LowerAll(s)
  {
  }

  /** `(box.value || '').trim().toLowerCase()`: the box without its
      leading and trailing white space, lower-cased. */
  function Typed(value: string): (text: string)
    ensures text == [] <==> Blank(value, JsSpace)
    ensures text != [] ==> !JsSpace(text[0]) && !JsSpace(text[|text| - 1])
  {
    var t := Trim(value, JsSpace);
    LowerKeepsEnds(t);
    LowerAll(t)
  }

  /** The typed text is the box's value between its leading and its
      trailing white space, each character lower-cased. */
  lemma TypedSlice(value: string)
    ensures var text := Typed(value);
            var i := SkipSpace(value, 0, JsSpace);
            && i + |text| <= |value|
            && (forall k :: 0 <= k < |text| ==> text[k] == Lower(value[i + k]))
            && Blank(value[..i], JsSpace) && Blank(value[i + |text|..], JsSpace)
  {
    var t := Trim(value, JsSpace);
    var i := SkipSpace(value, 0, JsSpace);
    SliceChars(value, i, t);
    LowerChars(value, i, t, Typed(value));
  }

  // Two pointwise readings of a slice, named so that TypedSlice stays small.

  lemma SliceChars(s: string, i: nat, t: string)
    requires i + |t| <= |s| && t == s[i..i + |t|]
    ensures forall k :: 0 <= k < |t| ==> t[k] == s[i + k]
  {
  }

  lemma LowerChars(s: string, i: nat, t: string, r: string)
    requires i + |t| <= |s| && forall k :: 0 <= k < |t| ==> t[k] == s[i + k]
    requires r == LowerAll(t)
    ensures i + |r| <= |s| && forall k :: 0 <= k < |r| ==> r[k] == Lower(s[i + k])
  {
  }

  /** Lower-casing keeps a non-space at either end a non-space. */
  lemma LowerKeepsEnds(t: string)
    ensures t != [] ==> (JsSpace(Lower(t[0])) <==> JsSpace(t[0]))
    ensures t != [] ==> (JsSpace(Lower(t[|t| - 1])) <==> JsSpace(t[|t| - 1]))
  {
    if t != [] {
      LowerKeepsSpace(t[0]);
      LowerKeepsSpace(t[|t| - 1]);
    }
  }

  /** `text.split(/\s+/)` of the typed text: its maximal runs without
      white space, in order (`Text.TokensSplit`, `Text.TokensOfInterleave`). */
  function Words(value: string): (ws: seq<string>)
    ensures ws == [] <==> Blank(value, JsSpace)
    ensures forall n :: 0 <= n < |ws| ==> ws[n] != [] && forall k :: 0 <= k < |ws[n]| ==> !JsSpace(ws[n][k])
  {
    var text := Typed(value);
    assert text != [] ==> text[0..][0] == text[0];
    Tokens(text, 0, JsSpace)
  }

  /** `Number(parts[1]) || undefined`; `parts[1]` is `undefined`, so the
      number NaN, when there is no second word.  A signed decimal integer
      word is classified by its value. */
  function TypedSpeed(words: seq<string>): (spd: JsNumber.Kept)
    ensures |words| < 2 ==> spd == JsNumber.Undefined
    ensures |words| >= 2 && ParseSigned(words[1]).Some? ==>
              var n := ParseSigned(words[1]).value;
              spd == JsNumber.IntegerKept(n < 0, if n < 0 then -n else n)
  {
    if |words| < 2 then JsNumber.Undefined else JsNumber.NumberOr(words[1])
  }

  /** The speed a straight word uses when none is typed. */
  function DefaultFor(w: Word): int
  {
    if w == Backward then DefaultBackward else DefaultForward
  }

  /** The words whose request the model follows: all but a `forward` or
      `backward` with an `Inexact` speed. */
  predicate Followed(w: Word, spd: JsNumber.Kept)
  {
    !((w == Forward || w == Backward) && spd.Inexact?)
  }

  /** `spd ?? d` as `JSON.stringify` writes it: a number, or `null` for
      ±Infinity. */
  function SpeedField(spd: JsNumber.Kept, d: int): (v: Value)
    requires !spd.Inexact?
    ensures v.VNull? <==> spd.Infinite?
    ensures spd.Undefined? ==> v == VInt(d)
    ensures spd.Exact? ==> v == VInt(spd.n)
  {
    match spd
    case Undefined => VInt(d)
    case Exact(n) => VInt(n)
    case Infinite(_) => VNull
  }

  /** The options of `forward` and `backward`. */
  function Straight(speed: Value): Fields
  {
    [("speed", speed), ("angle", VInt(0))]
  }

  /** The options of `left` and `right`. */
  function Turn(): Fields
  {
    [("speed", VInt(TurnSpeed))]
  }

  /** The motion request for a typed command word, if it is one. */
  function MotionFor(w: Word, spd: JsNumber.Kept): (sent: seq<Request>)
    requires Followed(w, spd)
    ensures |sent| <= 1
    ensures sent != [] <==> w.Moves()
    ensures sent != [] ==> sent[0].cmd == Name(w)
  {
    match w
    case Forward => [Request("forward", Straight(SpeedField(spd, DefaultForward)))]
    case Backward => [Request("backward", Straight(SpeedField(spd, DefaultBackward)))]
    case TurnLeft => [Request("left", Turn())]
    case TurnRight => [Request("right", Turn())]
    case Halt => [StopRequest]
    case Sensors => []
    case Unknown => []
  }

  /** What `update_data` does with the words of a non-blank text. */
  function Respond(parts: seq<string>, text: string): (r: Submit)
    requires parts != []
    ensures r.Untracked? <==> !Followed(WordOf(parts[0]), TypedSpeed(parts))
    ensures r.Untracked? ==> r.cmd == parts[0]
    ensures r.Submit? ==> 1 <= |r.requests| <= 2 && r.requests[|r.requests| - 1] == SensorsRequest
    ensures r.Submit? ==> (|r.requests| == 2 <==> WordOf(parts[0]).Moves())
    ensures r.Submit? && |r.requests| == 2 ==> r.requests[0].cmd == parts[0]
    ensures r.Submit? && r.notice.Some? <==> WordOf(parts[0]) == Unknown
    ensures r.Submit? && r.notice.Some? ==> r.notice.value == "Unknown command: " + text
  {
    var w := WordOf(parts[0]);
    var spd := TypedSpeed(parts);
    if !Followed(w, spd) then Untracked(parts[0])
    else
      var sent := MotionFor(w, spd);
      var notice := if w == Unknown then Some("Unknown command: " + text) else None;
      Submit(sent + [SensorsRequest], notice)
  }

  /** `update_data()` on the text box's value.  Blank input does nothing; a
      motion word sends its command and then `sensors`; `sensors` and
      unknown words send only `sensors`, and unknown words are reported. */
  function UpdateData(value: string): (r: Submit)
    ensures Blank(value, JsSpace) <==> r == Submit([], None)
    ensures r.Untracked? <==> !Blank(value, JsSpace) && !Followed(WordOf(Words(value)[0]), TypedSpeed(Words(value)))
    ensures r.Submit? && !Blank(value, JsSpace) ==>
              && 1 <= |r.requests| <= 2
              && r.requests[|r.requests| - 1] == SensorsRequest
              && (|r.requests| == 2 <==> WordOf(Words(value)[0]).Moves())
              && (|r.requests| == 2 ==> r.requests[0].cmd == Words(value)[0])
    ensures r.Submit? && r.notice.Some? <==> !Blank(value, JsSpace) && WordOf(Words(value)[0]) == Unknown
    ensures r.Submit? && r.notice.Some? ==> r.notice.value == "Unknown command: " + Typed(value)
  {
    var text := Typed(value);
    if text == [] then Submit([], None)
    else Respond(Words(value), text)
  }

  /** A `forward` or `backward` whose typed speed rounds to ±Infinity. */
  predicate SpeedOverflows(value: string)
  {
    var ws := Words(value);
    ws != [] && (WordOf(ws[0]) == Forward || WordOf(ws[0]) == Backward) && TypedSpeed(ws).Infinite?
  }

  /** `update_data` on a non-blank text is decided by its words. */
  lemma UpdateDataOfWords(value: string, ws: seq<string>, text: string)
    requires Typed(value) == text && text != [] && Words(value) == ws
    ensures UpdateData(value) == Respond(ws, text)
  {
  }

  /** Each known word is recognised by its own spelling. */
  lemma WordOfName(w: Word)
    requires w != Unknown
    ensures WordOf(Name(w)) == w
  {
  }

  // ----- the arrow buttons -----

  /** The buttons `upArrow`, `downArrow`, `leftArrow` and `rightArrow`. */
  datatype Arrow = Up | Down | Left | Right

  /** The `onPress` action bound to each arrow. */
  function PressRequest(a: Arrow): Request
  {
    match a
    case Up => Request("forward", Straight(VInt(DefaultForward)))
    case Down => Request("backward", Straight(VInt(DefaultBackward)))
    case Left => Request("left", Turn())
    case Right => Request("right", Turn())
  }

  /** Pressing an arrow: its motion command, then `sensors`. */
  function Press(a: Arrow): (sent: seq<Request>)
  {
    [PressRequest(a), SensorsRequest]
  }

  /** One binding's release handler: `stop`, then `sensors`. */
  function Release(): seq<Request>
  {
    [StopRequest, SensorsRequest]
  }

  /** A `mouseup` (or `touchend`, `touchcancel`) on the window runs the
      release handler of every bound arrow.  Each handler sends its `stop`
      before its first `await`, and resumes only after the listeners have
      all run, so all the `stop`s go out before any `sensors`. */
  function ReleaseAll(bound: nat): (sent: seq<Request>)
    ensures |sent| == 2 * bound
    ensures forall i :: 0 <= i < bound ==> sent[i] == StopRequest
    ensures forall i :: bound <= i < |sent| ==> sent[i] == SensorsRequest
  {
    seq(bound, _ => StopRequest) + seq(bound, _ => SensorsRequest)
  }

  /** The word that, typed into the text box, does what the arrow does. */
  function ArrowWord(a: Arrow): Word
  {
    match a
    case Up => Forward
    case Down => Backward
    case Left => TurnLeft
    case Right => TurnRight
  }

  // ----- properties -----

  /** A sequence without spaces at its ends is its own trim. */
  lemma TrimSolid(s: string)
    requires s != [] && !JsSpace(s[0]) && !JsSpace(s[|s| - 1])
    ensures Trim(s, JsSpace) == s
  {
    assert SkipSpace(s, 0, JsSpace) == 0;
    assert SkipSpaceBack(s, |s|, JsSpace) == |s|;
  }

  /** A non-empty word of no spaces and no capitals. */
  predicate Plain(w: string)
  {
    w != [] && forall k :: 0 <= k < |w| ==> !JsSpace(w[k]) && Lower(w[k]) == w[k]
  }

  /** Lower-casing leaves alone a sequence that has no capitals. */
  lemma {:induction false} LowerAllFixed(s: string)
    requires forall k :: 0 <= k < |s| ==> Lower(s[k]) == s[k]
    ensures LowerAll(s) == s
  {
    if s != [] {
      assert forall k :: 0 <= k < |s[1..]| ==> s[1..][k] == s[k + 1];
      LowerAllFixed(s[1..]);
    }
  }

  /** A plain word is read back as one word. */
  lemma OneWord(w: string)
    requires Plain(w)
    ensures Typed(w) == w && Words(w) == [w]
  {
    LowerAllFixed(w);
    TrimSolid(w);
    assert Typed(w) == w;
    assert SkipSpace(w, 0, JsSpace) == 0;
    SkipRunTo(w, 0, |w|, JsSpace);
    assert w[0..|w|] == w;
  }

  lemma TokensOfTwo(w: string, x: string)
    requires Plain(w) && Plain(x)
    ensures Tokens(w + " " + x, 0, JsSpace) == [w, x]
  {
    var s := w + " " + x;
    assert SkipSpace(s, 0, JsSpace) == 0;
    SkipRunTo(s, 0, |w|, JsSpace);
    assert s[0..|w|] == w;
    assert SkipSpace(s, |w|, JsSpace) == |w| + 1 by {
      assert JsSpace(s[|w|]) && !JsSpace(s[|w| + 1]);
    }
    SkipRunTo(s, |w| + 1, |s|, JsSpace);
    assert s[|w| + 1..|s|] == x;
    assert Tokens(s, |s|, JsSpace) == [];
  }

  /** Two plain words with one space between are read back as two words. */
  lemma TwoWords(w: string, x: string)
    requires Plain(w) && Plain(x)
    ensures Typed(w + " " + x) == w + " " + x && Words(w + " " + x) == [w, x]
  {
    var s := w + " " + x;
    forall i | 0 <= i < |s| ensures Lower(s[i]) == s[i] {
      if i < |w| { assert s[i] == w[i]; }
      else if i > |w| { assert s[i] == x[i - |w| - 1]; }
    }
    LowerAllFixed(s);
    assert s[0] == w[0] && s[|s| - 1] == x[|x| - 1];
    TrimSolid(s);
    TokensOfTwo(w, x);
  }

  /** A decimal numeral is a plain word. */
  lemma NumeralIsWord(n: int)
    ensures Plain(IntText(n))
  {
    var t := IntText(n);
    if n < 0 {
      assert t == "-" + NatText(-n);
    } else {
      assert t == NatText(n);
    }
    forall k | 0 <= k < |t| ensures !JsSpace(t[k]) && Lower(t[k]) == t[k] {
      if n < 0 && k > 0 { assert t[k] == NatText(-n)[k - 1]; }
    }
  }

  /** A known word's spelling is a plain word. */
  lemma NameIsWord(w: Word)
    requires w != Unknown
    ensures Plain(Name(w))
  {
    match w
    case Forward =>
    case Backward =>
    case TurnLeft =>
    case TurnRight =>
    case Halt =>
    case Sensors =>
  }

  /** A known word typed on its own is read as that one word. */
  lemma NameAlone(w: Word)
    requires w != Unknown
    ensures Words(Name(w)) == [Name(w)] && WordOf(Name(w)) == w
  {
    NameIsWord(w);
    OneWord(Name(w));
    WordOfName(w);
  }

  /** Whatever its spacing or capitals, a text whose first word is
      `forward` or `backward` sends that command with the speed its second
      word gives (the default when there is none, or when it is NaN or
      zero; `null` when it is beyond the double range) and angle 0, then
      `sensors`, unless that speed is one the model does not follow. */
  lemma TypedStraight(value: string, w: Word)
    requires w == Forward || w == Backward
    requires Words(value) != [] && WordOf(Words(value)[0]) == w
    ensures var spd := TypedSpeed(Words(value));
            var r := UpdateData(value);
            && (r.Untracked? <==> spd.Inexact?)
            && (!spd.Inexact? ==>
                  r == Submit([Request(Name(w), Straight(SpeedField(spd, DefaultFor(w)))), SensorsRequest], None))
  {
    var ws := Words(value);
    assert Typed(value) != [];
    UpdateDataOfWords(value, ws, Typed(value));
    RespondStraight(ws, Typed(value), w);
  }

  /** The answer to the words of a `forward` or `backward` text. */
  lemma RespondStraight(ws: seq<string>, text: string, w: Word)
    requires w == Forward || w == Backward
    requires ws != [] && WordOf(ws[0]) == w
    ensures var spd := TypedSpeed(ws);
            && (Respond(ws, text).Untracked? <==> spd.Inexact?)
            && (!spd.Inexact? ==>
                  Respond(ws, text) == Submit([Request(Name(w), Straight(SpeedField(spd, DefaultFor(w)))), SensorsRequest], None))
  {
    var spd := TypedSpeed(ws);
    if !spd.Inexact? {
      assert MotionFor(w, spd) == [Request(Name(w), Straight(SpeedField(spd, DefaultFor(w))))];
    }
  }

  /** The text `forward n` (or `backward n`) has the words `forward` (or
      `backward`) and the numeral of `n`, whose speed is `n` classified. */
  lemma StraightText(w: Word, n: int)
    requires w == Forward || w == Backward
    ensures var ws := Words(Name(w) + " " + IntText(n));
            && ws == [Name(w), IntText(n)] && WordOf(ws[0]) == w
            && TypedSpeed(ws) == JsNumber.IntegerKept(n < 0, if n < 0 then -n else n)
  {
    var ws := [Name(w), IntText(n)];
    NameIsWord(w);
    NumeralIsWord(n);
    TwoWords(Name(w), IntText(n));
    WordOfName(w);
    SpeedOfNumeral(ws, n);
  }

  /** A second word that is the numeral of `n` gives `n` classified. */
  lemma SpeedOfNumeral(ws: seq<string>, n: int)
    requires |ws| == 2 && ws[1] == IntText(n)
    ensures TypedSpeed(ws) == JsNumber.IntegerKept(n < 0, if n < 0 then -n else n)
  {
    ParseIntText(n);
  }

  /** A second word that starts with a letter is not a number, so no speed
      is taken from it. */
  lemma WordSpeedUndefined(words: seq<string>)
    requires |words| >= 2 && words[1] != [] && 'a' <= words[1][0] <= 'z'
    ensures TypedSpeed(words) == JsNumber.Undefined
  {
    JsNumber.LetterIsNaN(words[1]);
  }

  /** Typing `forward` or `backward` followed by a word such as `fast`
      drives at the default speed with the wheels straight. */
  lemma TypedWordDefault(value: string, w: Word)
    requires w == Forward || w == Backward
    requires |Words(value)| >= 2 && WordOf(Words(value)[0]) == w
    requires 'a' <= Words(value)[1][0] <= 'z'
    ensures UpdateData(value) == Submit([Request(Name(w), Straight(VInt(DefaultFor(w)))), SensorsRequest], None)
  {
    WordSpeedUndefined(Words(value));
    TypedStraight(value, w);
  }

  /** Typing `forward n` or `backward n`: zero (of either sign) falls back to
      the default speed, an integer a double holds exactly is sent as it is,
      one beyond the double range is sent as `null`, and one in between is
      rounded, which the model does not follow. */
  lemma TypedNumeral(w: Word, n: int)
    requires w == Forward || w == Backward
    ensures var r := UpdateData(Name(w) + " " + IntText(n));
            var m := if n < 0 then -n else n;
            && (m == 0 ==> r == Submit([Request(Name(w), Straight(VInt(DefaultFor(w)))), SensorsRequest], None))
            && (0 < m <= JsNumber.MaxExact ==> r == Submit([Request(Name(w), Straight(VInt(n))), SensorsRequest], None))
            && (m >= JsNumber.Overflow ==> r == Submit([Request(Name(w), Straight(VNull)), SensorsRequest], None))
            && (JsNumber.MaxExact < m < JsNumber.Overflow ==> r == Untracked(Name(w)))
  {
    StraightText(w, n);
    TypedStraight(Name(w) + " " + IntText(n), w);
    assert TypedSpeed(Words(Name(w) + " " + IntText(n))) == JsNumber.IntegerKept(n < 0, if n < 0 then -n else n);
  }

  /** A text whose first word is `left` or `right` turns at speed 35,
      whatever else is typed after it. */
  lemma TypedTurnIgnoresSpeed(value: string, w: Word)
    requires w == TurnLeft || w == TurnRight
    requires Words(value) != [] && WordOf(Words(value)[0]) == w
    ensures UpdateData(value) == Submit([Request(Name(w), Turn()), SensorsRequest], None)
  {
    assert Typed(value) != [];
    UpdateDataOfWords(value, Words(value), Typed(value));
    RespondTurn(Words(value), Typed(value), w);
  }

  lemma RespondTurn(ws: seq<string>, text: string, w: Word)
    requires w == TurnLeft || w == TurnRight
    requires ws != [] && WordOf(ws[0]) == w
    ensures Respond(ws, text) == Submit([Request(Name(w), Turn()), SensorsRequest], None)
  {
    assert Followed(w, TypedSpeed(ws));
    assert MotionFor(w, TypedSpeed(ws)) == [Request(Name(w), Turn())];
  }

  /** Typing an arrow's word on its own sends exactly what pressing the
      arrow sends. */
  lemma ArrowMatchesTyped(a: Arrow, value: string)
    requires Words(value) == [Name(ArrowWord(a))]
    ensures UpdateData(value) == Submit(Press(a), None)
  {
    assert Typed(value) != [];
    UpdateDataOfWords(value, Words(value), Typed(value));
    RespondArrow(a, Typed(value));
  }

  /** The answer to an arrow's word typed alone. */
  lemma RespondArrow(a: Arrow, text: string)
    ensures Respond([Name(ArrowWord(a))], text) == Submit(Press(a), None)
  {
    var w := ArrowWord(a);
    WordOfName(w);
    assert TypedSpeed([Name(w)]) == JsNumber.Undefined;
    assert MotionFor(w, JsNumber.Undefined) == [PressRequest(a)];
  }

  /** A text whose first word is `stop` sends exactly what releasing an
      arrow sends. */
  lemma ReleaseMatchesTyped(value: string)
    requires Words(value) != [] && WordOf(Words(value)[0]) == Halt
    ensures UpdateData(value) == Submit(Release(), None)
  {
    assert Typed(value) != [];
    UpdateDataOfWords(value, Words(value), Typed(value));
    RespondHalt(Words(value), Typed(value));
  }

  lemma RespondHalt(ws: seq<string>, text: string)
    requires ws != [] && WordOf(ws[0]) == Halt
    ensures Respond(ws, text) == Submit(Release(), None)
  {
    assert Followed(Halt, TypedSpeed(ws));
    assert MotionFor(Halt, TypedSpeed(ws)) == [StopRequest];
  }

  /** A text whose first word is `sensors` asks for the readings once and
      moves nothing. */
  lemma TypedSensors(value: string)
    requires Words(value) != [] && WordOf(Words(value)[0]) == Sensors
    ensures UpdateData(value) == Submit([SensorsRequest], None)
  {
    assert Typed(value) != [];
    UpdateDataOfWords(value, Words(value), Typed(value));
    RespondSensors(Words(value), Typed(value));
  }

  lemma RespondSensors(ws: seq<string>, text: string)
    requires ws != [] && WordOf(ws[0]) == Sensors
    ensures Respond(ws, text) == Submit([SensorsRequest], None)
  {
    assert Followed(Sensors, TypedSpeed(ws));
    assert MotionFor(Sensors, TypedSpeed(ws)) == [];
  }

  /** Every number the text box sends is an integer a double holds
      exactly, so its JSON text is its decimal numeral. */
  lemma SentIntegersExact(value: string)
    ensures var r := UpdateData(value);
            r.Submit? ==> forall q :: q in r.requests ==> JsNumber.ExactInts(q.options)
  {
    if Typed(value) != [] {
      UpdateDataOfWords(value, Words(value), Typed(value));
      RespondIntegersExact(Words(value), Typed(value));
    }
  }

  lemma RespondIntegersExact(ws: seq<string>, text: string)
    requires ws != []
    ensures var r := Respond(ws, text);
            r.Submit? ==> forall q :: q in r.requests ==> JsNumber.ExactInts(q.options)
  {
    var w := WordOf(ws[0]);
    var spd := TypedSpeed(ws);
    if Followed(w, spd) {
      var sent := MotionFor(w, spd) + [SensorsRequest];
      assert Respond(ws, text).requests == sent;
      forall q | q in sent ensures JsNumber.ExactInts(q.options) {
        if q != SensorsRequest && (w == Forward || w == Backward) {
          var v := SpeedField(spd, DefaultFor(w));
          assert q == Request(Name(w), Straight(v));
          assert v.VInt? ==> -(JsNumber.MaxExact as int) <= v.i <= JsNumber.MaxExact;
        }
      }
    }
  }

  /** The typed text is its words with white space between them and none
      before the first: `Words` loses nothing but white space. */
  lemma WordsSplit(value: string)
    ensures Layout(Typed(value), Gaps(Typed(value), 0, JsSpace), Words(value), [], JsSpace)
  {
    var text := Typed(value);
    assert Words(value) == Tokens(text, 0, JsSpace);
    TokensSplitAll(text, JsSpace);
  }

  /** A box whose typed text is words laid out with white space between
      them is read as exactly those words. */
  lemma WordsOfLayout(value: string, gaps: seq<string>, ws: seq<string>)
    requires |gaps| == |ws| + 1 && Separators(gaps, JsSpace) && Solid(ws, JsSpace)
    requires Typed(value) == Interleave(gaps, ws)
    ensures Words(value) == ws
  {
    TokensOfInterleave(gaps, ws, JsSpace);
  }

  /** Skipping spaces gives the same position in a lower-cased sequence. */
  lemma {:induction false} SkipSpaceLower(s: string, from: nat)
    requires from <= |s|
    ensures SkipSpace(LowerAll(s), from, JsSpace) == SkipSpace(s, from, JsSpace)
    decreases |s| - from
  {
    if from < |s| {
      LowerKeepsSpace(s[from]);
      if JsSpace(s[from]) {
        SkipSpaceLower(s, from + 1);
      }
    }
  }

  lemma {:induction false} SkipSpaceBackLower(s: string, upto: nat)
    requires upto <= |s|
    ensures SkipSpaceBack(LowerAll(s), upto, JsSpace) == SkipSpaceBack(s, upto, JsSpace)
  {
    if upto > 0 {
      LowerKeepsSpace(s[upto - 1]);
      if JsSpace(s[upto - 1]) {
        SkipSpaceBackLower(s, upto - 1);
      }
    }
  }

  /** Two texts that read the same after trimming and lower-casing are
      handled the same. */
  lemma TypedDecides(a: string, b: string)
    requires Typed(a) == Typed(b)
    ensures UpdateData(a) == UpdateData(b)
  {
    assert Words(a) == Words(b);
  }

  lemma LowerAllSlice(s: string, i: nat, j: nat)
    requires i <= j <= |s|
    ensures LowerAll(s)[i..j] == LowerAll(s[i..j])
  {
    var a, b := LowerAll(s)[i..j], LowerAll(s[i..j]);
    forall k | 0 <= k < |a| ensures a[k] == b[k] {
      assert a[k] == LowerAll(s)[i + k] == Lower(s[i + k]);
      assert b[k] == Lower(s[i..j][k]);
    }
    assert a == b;
  }

  /** Lower-casing first changes nothing about the typed text. */
  lemma TypedLower(value: string)
    ensures Typed(LowerAll(value)) == Typed(value)
  {
    var l := LowerAll(value);
    SkipSpaceLower(value, 0);
    SkipSpaceBackLower(value, |value|);
    var i := SkipSpace(value, 0, JsSpace);
    var j := SkipSpaceBack(value, |value|, JsSpace);
    if i < |value| {
      assert !JsSpace(value[i]);
      assert i < j;
      assert Trim(l, JsSpace) == l[i..j];
      assert Trim(value, JsSpace) == value[i..j];
      LowerAllSlice(value, i, j);
      LowerAllIdempotent(value[i..j]);
    } else {
      assert Trim(l, JsSpace) == [] && Trim(value, JsSpace) == [];
    }
  }

  /** Commands are read case-insensitively: capitals in the box change
      nothing, not even the text of an unknown-command notice. */
  lemma CaseInsensitive(value: string)
    ensures UpdateData(LowerAll(value)) == UpdateData(value)
  {
    TypedLower(value);
    TypedDecides(LowerAll(value), value);
  }

  /** After a press and a release of every bound arrow, the last request
      that is not `sensors` is a `stop`. */
  lemma PressThenReleaseStops(a: Arrow, bound: nat)
    requires bound > 0
    ensures var sent := Press(a) + ReleaseAll(bound);
            exists k :: 0 <= k < |sent| && sent[k] == StopRequest
                        && forall j :: k < j < |sent| ==> sent[j] == SensorsRequest
  {
    var sent := Press(a) + ReleaseAll(bound);
    var k := bound + 1;
    assert sent[k] == ReleaseAll(bound)[bound - 1];
    forall j | k < j < |sent| ensures sent[j] == SensorsRequest {
      assert sent[j] == ReleaseAll(bound)[j - 2];
    }
  }
}

=== FILE: robot.dfy ===
/** The robot's command dispatcher (iot-lab-2/electron/server_tcp.py,
    `do_move`): one decoded request in, one result dictionary out, with the
    motor calls it makes recorded as `Action`s.  Sensor readings are inputs.
 */
module Robot {

  import opened Values
  import opened Decimal
  import opened Text

  const DefaultSpeed: int := 40
  const TurnAngle: int := 30
  const MaxSpeed: int := 100
  const MaxAngle: int := 45

  /** A call on the motor driver. */
  datatype Action = Steer(angle: int) | Forward(speed: int) | Backward(speed: int) | Stop

  /** The Python exceptions `do_move` can raise: `get` on something that is
      not a dictionary, or `int(...)` on a value it cannot convert. */
  datatype PyError = NoGet | NotAnInt(key: string, v: Value)

  /** A hardware read either yields a value or raises with some message. */
  datatype Reading<T> = Read(v: T) | ReadError(detail: string)

  /** What the sensors would report if read now: the (already rounded)
      ultrasonic distance, and the cliff status computed from the grayscale
      module. */
  datatype Readings = Readings(distance: Reading<real>, cliffStatus: Reading<Value>)

  datatype Cliff = Safe | Danger

  /** The `error` of a failed result.  The text of a Python exception is
      kept as the exception itself. */
  datatype Reason =
    | BadJson
    | UnknownCmd
    | Ultrasonic(detail: string)
    | Grayscale(detail: string)
    | Exception(error: PyError)

  /** A result dictionary: `{"ok": true}`, the sensor report, or `ok: false`
      with a reason. */
  datatype Response = Ack | Telemetry(distanceCm: real, cliff: Cliff) | Refusal(reason: Reason)

  /** `do_move` either returns a result, having made some motor calls, or
      raises before making any. */
  datatype Outcome = Returned(resp: Response, actions: seq<Action>) | Raised(error: PyError)

  /** Whitespace that Python's `int()` ignores around a numeral: the ASCII
      space and `\t`..`\r`, and the non-ASCII characters `str.isspace()`
      accepts.  The separators U+001C..U+001F are not among them, although
      `str.isspace()` accepts those too. */
  predicate PySpace(c: char)
  {
    || c == ' ' || '\t' <= c <= '\r'
    || c == '\U{85}' || c == '\U{A0}' || c == '\U{1680}' || '\U{2000}' <= c <= '\U{200A}'
    || c == '\U{2028}' || c == '\U{2029}' || c == '\U{202F}' || c == '\U{205F}' || c == '\U{3000}'
  }

  /** Digits, with single underscores allowed between two digits. */
  predicate GroupedDigits(s: string)
  {
    && |s| > 0 && IsDigit(s[0]) && IsDigit(s[|s| - 1])
    && (forall i :: 0 <= i < |s| ==> IsDigit(s[i]) || s[i] == '_')
    && (forall i :: 0 <= i < |s| - 1 ==> s[i] == '_' ==> s[i + 1] != '_')
  }

  function DropUnderscores(s: string): (r: string)
    requires forall i :: 0 <= i < |s| ==> IsDigit(s[i]) || s[i] == '_'
    ensures AllDigits(r)
  {
    if s == [] then []
    else (if s[0] == '_' then [] else [s[0]]) + DropUnderscores(s[1..])
  }

  /** `int(s)` for a string `s`: surrounding whitespace, an optional sign,
      then decimal digits; anything else raises `ValueError`. */
  function IntOfText(s: string): (r: Option<int>)
  {
    var t := Trim(s, PySpace);
    var negative := |t| > 0 && t[0] == '-';
    var body := if |t| > 0 && (t[0] == '+' || t[0] == '-') then t[1..] else t;
    if GroupedDigits(body) then
      var n := DigitsValue(DropUnderscores(body)) as int;
      Some(if negative then -n else n)
    else None
  }

  /** `int(v)` for a JSON scalar: integers as they are, `True`/`False` as
      1/0 (a Python `bool` is an `int`), strings parsed, `None` refused. */
  function PyInt(v: Value): (r: Option<int>)
    ensures v.VInt? ==> r == Some(v.i)
    ensures v.VBool? ==> r == Some(if v.b then 1 else 0)
    ensures v.VNull? ==> r == None
  {
    match v
    case VInt(n) => Some(n)
    case VBool(b) => Some(if b then 1 else 0)
    case VStr(s) => IntOfText(s)
    case VNull => None
  }

  /** `max(lo, min(x, hi))`. */
  function Clamp(x: int, lo: int, hi: int): (r: int)
    requires lo <= hi
    ensures lo <= r <= hi
    ensures lo <= x <= hi ==> r == x
    ensures x < lo ==> r == lo
    ensures x > hi ==> r == hi
  {
    if x < lo then lo else if x > hi then hi else x
  }

  /** `d.get(key, default)`. */
  function Get(d: map<string, Value>, key: string, default: Value): Value
  {
    if key in d then d[key] else default
  }

  /** The command name of a request; a missing `cmd` reads as `None`. */
  function Cmd(d: map<string, Value>): Value
  {
    Get(d, "cmd", VNull)
  }

  /** Speed and angle both convert, so `do_move` reaches its dispatch. */
  predicate Dispatchable(req: Json)
  {
    req.Obj? && PyInt(Get(req.dict, "speed", VInt(DefaultSpeed))).Some?
    && PyInt(Get(req.dict, "angle", VInt(0))).Some?
  }

  /** The clamped speed and angle of a dispatchable request. */
  function Speed(req: Json): (s: int)
    requires Dispatchable(req)
    ensures 0 <= s <= MaxSpeed
  {
    Clamp(PyInt(Get(req.dict, "speed", VInt(DefaultSpeed))).value, 0, MaxSpeed)
  }

  function Angle(req: Json): (a: int)
    requires Dispatchable(req)
    ensures -MaxAngle <= a <= MaxAngle
  {
    Clamp(PyInt(Get(req.dict, "angle", VInt(0))).value, -MaxAngle, MaxAngle)
  }

  /** The command names `do_move` recognises. */
  predicate Known(cmd: Value)
  {
    cmd in {VStr("forward"), VStr("backward"), VStr("left"), VStr("right"), VStr("stop"), VStr("sensors")}
  }

  /** A motor call within the limits the dispatcher enforces. */
  predicate SafeAction(a: Action)
  {
    match a
    case Steer(angle) => -MaxAngle <= angle <= MaxAngle
    case Forward(speed) => 0 <= speed <= MaxSpeed
    case Backward(speed) => 0 <= speed <= MaxSpeed
    case Stop => true
  }

  /** The `sensors` branch: a failed distance read is reported first; a
      cliff status that is exactly `False` is safe, anything else danger. */
  function Sense(readings: Readings): (r: Response)
    ensures readings.distance.ReadError? ==> r == Refusal(Ultrasonic(readings.distance.detail))
    ensures readings.distance.Read? && readings.cliffStatus.ReadError? ==>
              r == Refusal(Grayscale(readings.cliffStatus.detail))
    ensures r.Telemetry? <==> readings.distance.Read? && readings.cliffStatus.Read?
    ensures r.Telemetry? ==> r.distanceCm == readings.distance.v
    ensures r.Telemetry? ==> (r.cliff == Safe <==> readings.cliffStatus.v == VBool(false))
  {
    match readings.distance
    case ReadError(e) => Refusal(Ultrasonic(e))
    case Read(dist) =>
      match readings.cliffStatus
      case ReadError(e) => Refusal(Grayscale(e))
      case Read(status) => Telemetry(dist, if status == VBool(false) then Safe else Danger)
  }

  /** `do_move(req)`. */
  function DoMove(req: Json, readings: Readings): (r: Outcome)
    ensures r.Raised? <==> !Dispatchable(req)
    ensures r.Returned? ==> forall a :: a in r.actions ==> SafeAction(a)
    ensures r.Returned? ==> (r.resp == Refusal(UnknownCmd) <==> !Known(Cmd(req.dict)))
  {
    match req
    case NonObject => Raised(NoGet)
    case Obj(d) =>
      var rawSpeed := Get(d, "speed", VInt(DefaultSpeed));
      var rawAngle := Get(d, "angle", VInt(0));
      if PyInt(rawSpeed).None? then Raised(NotAnInt("speed", rawSpeed))
      else if PyInt(rawAngle).None? then Raised(NotAnInt("angle", rawAngle))
      else
        var speed := Speed(req);
        var angle := Angle(req);
        var cmd := Cmd(d);
        if cmd == VStr("forward") then Returned(Ack, [Steer(angle), Forward(speed)])
        else if cmd == VStr("backward") then Returned(Ack, [Steer(angle), Backward(speed)])
        else if cmd == VStr("left") then Returned(Ack, [Steer(-TurnAngle), Forward(speed)])
        else if cmd == VStr("right") then Returned(Ack, [Steer(TurnAngle), Forward(speed)])
        else if cmd == VStr("stop") then Returned(Ack, [Stop])
        else if cmd == VStr("sensors") then Returned(Sense(readings), [])
        else Returned(Refusal(UnknownCmd), [])
  }

  /** `forward` and `backward` steer to the clamped angle and drive at the
      clamped speed in their own direction, and acknowledge. */
  lemma StraightDrive(req: Json, readings: Readings)
    requires Dispatchable(req)
    requires Cmd(req.dict) in {VStr("forward"), VStr("backward")}
    ensures var r := DoMove(req, readings);
            && r.Returned? && r.resp == Ack && |r.actions| == 2
            && r.actions[0] == Steer(Angle(req))
            && r.actions[1].speed == Speed(req)
            && (r.actions[1].Forward? <==> Cmd(req.dict) == VStr("forward"))
            && (r.actions[1].Backward? <==> Cmd(req.dict) == VStr("backward"))
  {
  }

  /** `left` and `right` steer a fixed 30 degrees whatever `angle` says, then
      drive forward at the clamped speed: replacing the angle field by any
      other convertible value changes nothing. */
  lemma TurnIgnoresAngle(d: map<string, Value>, angle: Value, readings: Readings)
    requires Dispatchable(Obj(d))
    requires Cmd(d) in {VStr("left"), VStr("right")}
    requires PyInt(angle).Some?
    ensures DoMove(Obj(d["angle" := angle]), readings) == DoMove(Obj(d), readings)
    ensures DoMove(Obj(d), readings) ==
              Returned(Ack, [Steer(if Cmd(d) == VStr("left") then -TurnAngle else TurnAngle),
                             Forward(Speed(Obj(d)))])
  {
    var d' := d["angle" := angle];
    assert Cmd(d') == Cmd(d);
    assert Get(d', "speed", VInt(DefaultSpeed)) == Get(d, "speed", VInt(DefaultSpeed));
    assert Get(d', "angle", VInt(0)) == angle;
    assert Dispatchable(Obj(d'));
    assert Speed(Obj(d')) == Speed(Obj(d));
    TurnOutcome(Obj(d), readings);
    TurnOutcome(Obj(d'), readings);
  }

  lemma TurnOutcome(req: Json, readings: Readings)
    requires Dispatchable(req)
    requires Cmd(req.dict) in {VStr("left"), VStr("right")}
    ensures DoMove(req, readings) ==
              Returned(Ack, [Steer(if Cmd(req.dict) == VStr("left") then -TurnAngle else TurnAngle), Forward(Speed(req))])
  {
  }

  /** A request naming only its command drives at speed 40 with the wheels
      straight. */
  lemma DefaultSpeedAndAngle(cmd: string, readings: Readings)
    requires cmd in {"forward", "backward"}
    ensures var r := DoMove(Obj(map["cmd" := VStr(cmd)]), readings);
            r.Returned? && r.actions[0] == Steer(0) && r.actions[1].speed == DefaultSpeed
  {
    var d := map["cmd" := VStr(cmd)];
    assert "speed" !in d && "angle" !in d;
  }

  /** An unrecognised or missing command is refused with `unknown_cmd` and
      moves nothing, provided speed and angle convert. */
  lemma UnknownMovesNothing(req: Json, readings: Readings)
    requires Dispatchable(req)
    requires !Known(Cmd(req.dict))
    ensures DoMove(req, readings) == Returned(Refusal(UnknownCmd), [])
  {
  }

  /** The only commands that move the robot are the four drive commands and
      `stop`; `sensors` only reads. */
  lemma OnlyMotionCommandsAct(req: Json, readings: Readings)
    requires DoMove(req, readings).Returned?
    ensures DoMove(req, readings).actions != [] <==>
              Cmd(req.dict) in {VStr("forward"), VStr("backward"), VStr("left"), VStr("right"), VStr("stop")}
  {
  }

  /** What `int()` accepts, once trimmed, starts with a sign or a digit and
      ends with a digit. */
  lemma IntOfTextShape(s: string)
    ensures var t := Trim(s, PySpace);
            IntOfText(s).Some? ==> t != [] && IsDigit(t[|t| - 1]) && (IsDigit(t[0]) || t[0] == '+' || t[0] == '-')
  {
    var t := Trim(s, PySpace);
    var body := if |t| > 0 && (t[0] == '+' || t[0] == '-') then t[1..] else t;
    if GroupedDigits(body) {
      assert body[|body| - 1] == t[|t| - 1];
    }
  }

  /** `int()` refuses a numeral with one of the separators U+001C..U+001F
      before or after it. */
  lemma SeparatorRefused(c: char, s: string)
    requires '\U{1C}' <= c <= '\U{1F}'
    ensures PyInt(VStr([c] + s)) == None
    ensures PyInt(VStr(s + [c])) == None
  {
    NotSignOrDigitFirst([c] + s);
    NotDigitLast(s + [c]);
  }

  lemma NotSignOrDigitFirst(s: string)
    requires s != [] && !PySpace(s[0]) && !IsDigit(s[0]) && s[0] != '+' && s[0] != '-'
    ensures IntOfText(s) == None
  {
    TrimEnds(s, PySpace);
    IntOfTextShape(s);
  }

  lemma NotDigitLast(s: string)
    requires s != [] && !PySpace(s[|s| - 1]) && !IsDigit(s[|s| - 1])
    ensures IntOfText(s) == None
  {
    TrimEnds(s, PySpace);
    IntOfTextShape(s);
  }

  /** `int("\x1c5")` raises, although `"\x1c".isspace()` holds. */
  lemma SeparatorExample()
    ensures PyInt(VStr("\U{1C}5")) == None
  {
    SeparatorRefused('\U{1C}', "5");
    assert "\U{1C}5" == ['\U{1C}'] + "5";
  }

  /** `int()` reads back the decimal text of any integer. */
  lemma IntOfIntText(n: int)
    ensures PyInt(VStr(IntText(n))) == Some(n)
  {
    var s := IntText(n);
    var mag := NatText(if n < 0 then -n else n);
    assert s == if n < 0 then "-" + mag else mag;
    NoSpaceInNumeral(s, mag, n < 0);
    TrimNoSpace(s, PySpace);
    var body := if n < 0 then s[1..] else s;
    assert body == mag;
    assert GroupedDigits(mag);
    DropUnderscoresOfDigits(mag);
  }

  lemma NoSpaceInNumeral(s: string, mag: string, negative: bool)
    requires AllDigits(mag)
    requires s == if negative then "-" + mag else mag
    ensures forall i :: 0 <= i < |s| ==> !PySpace(s[i])
  {
    forall i | 0 <= i < |s| ensures !PySpace(s[i]) {
      if negative && i > 0 { assert s[i] == mag[i - 1]; }
    }
  }

  lemma {:induction false} DropUnderscoresOfDigits(s: string)
    requires AllDigits(s)
    ensures DropUnderscores(s) == s
  {
    if s != [] {
      DropUnderscoresOfDigits(s[1..]);
      assert [s[0]] + s[1..] == s;
    }
  }
}

=== FILE: server.dfy ===
/** The robot's per-connection handler (iot-lab-2/electron/server_tcp.py,
    `handle`): frame the received bytes into lines, answer each non-blank
    line with exactly one result line, and stop the motors when the
    connection ends, however it ends.

    Two things the handler depends on are parameters:
    - `decode` stands for `json.loads(line.decode("utf-8"))`; it says whether
      decoding raises an exception the loop does not catch, raises
      `JSONDecodeError`, or yields a JSON document, and which;
    - `sense(k)` gives the readings the sensors would return while answering
      the k-th reply of the connection (counting from 0).
 */
module Server {

  import opened Values
  import opened Framing
  import opened Text
  import opened Robot

  const Newline: byte := 10

  /** The bytes `bytes.strip()` removes: space, tab, LF, VT, FF, CR. */
  predicate AsciiSpace(b: byte)
  {
    b == 32 || 9 <= b <= 13
  }

  /** The result of decoding one line.  `Uncaught` is any exception other
      than `JSONDecodeError`: `UnicodeDecodeError` for a line that is not
      UTF-8, `RecursionError` for nesting deeper than the interpreter's
      recursion limit, `ValueError` for an integer literal longer than
      `int` accepts from text. */
  datatype Decoded = Uncaught | NotJson | Parsed(json: Json)

  /** What one complete line leads to: nothing, one reply (after some motor
      calls), or the end of the connection. */
  datatype LineEffect = Skip | Reply(resp: Response, actions: seq<Action>) | Abort

  /** The body of the inner `while` loop for one line.  An exception from
      decoding other than `JSONDecodeError` is caught by no handler in the
      loop, so the connection ends without a reply. */
  function AnswerLine(line: seq<byte>, decode: seq<byte> -> Decoded, readings: Readings): (e: LineEffect)
    ensures e.Skip? <==> Blank(line, AsciiSpace)
    ensures e.Abort? <==> !Blank(line, AsciiSpace) && decode(line).Uncaught?
    ensures !Blank(line, AsciiSpace) && decode(line).NotJson? ==> e == Reply(Refusal(BadJson), [])
    ensures e.Reply? ==> forall a :: a in e.actions ==> SafeAction(a)
  {
    if Blank(line, AsciiSpace) then Skip
    else
      match decode(line)
      case Uncaught => Abort
      case NotJson => Reply(Refusal(BadJson), [])
      case Parsed(req) =>
        match DoMove(req, readings)
        case Returned(resp, acts) => Reply(resp, acts)
        case Raised(err) => Reply(Refusal(Exception(err)), [Stop])
  }

  /** A decoded line is answered with what `do_move` returns; when it raises,
      the motors are stopped and the reply carries the exception. */
  lemma ParsedLineReply(line: seq<byte>, decode: seq<byte> -> Decoded, readings: Readings)
    requires !Blank(line, AsciiSpace) && decode(line).Parsed?
    ensures var e := AnswerLine(line, decode, readings);
            match DoMove(decode(line).json, readings)
            case Returned(resp, acts) => e == Reply(resp, acts)
            case Raised(err) => e == Reply(Refusal(Exception(err)), [Stop])
  {
  }

  /** Everything the connection has sent and done so far. */
  datatype Log = Log(responses: seq<Response>, actions: seq<Action>, open: bool)

  function HandleLine(log: Log, line: seq<byte>, decode: seq<byte> -> Decoded, sense: nat -> Readings): Log
  {
    if !log.open then log
    else
      match AnswerLine(line, decode, sense(|log.responses|))
      case Skip => log
      case Reply(resp, acts) => Log(log.responses + [resp], log.actions + acts, true)
      case Abort => log.(open := false)
  }

  /** The lines cut from one chunk, handled in order. */
  function HandleLines(log: Log, lines: seq<seq<byte>>, decode: seq<byte> -> Decoded, sense: nat -> Readings): Log
    decreases |lines|
  {
    if lines == [] then log
    else HandleLines(HandleLine(log, lines[0], decode, sense), lines[1..], decode, sense)
  }

  /** A connection: the receive buffer and the log. */
  datatype Conn = Conn(buf: seq<byte>, log: Log)

  /** One successful `recv`: append to the buffer, handle the complete lines. */
  function Receive(c: Conn, chunk: seq<byte>, decode: seq<byte> -> Decoded, sense: nat -> Readings): Conn
  {
    var s := Extract(c.buf + chunk, Newline);
    Conn(s.rest, HandleLines(c.log, s.lines, decode, sense))
  }

  /** The outer loop over the chunks `recv` returns; an empty chunk is the
      peer closing the connection. */
  function Run(c: Conn, chunks: seq<seq<byte>>, decode: seq<byte> -> Decoded, sense: nat -> Readings): Conn
    decreases |chunks|
  {
    if !c.log.open || chunks == [] then c
    else if chunks[0] == [] then c.(log := c.log.(open := false))
    else Run(Receive(c, chunks[0], decode, sense), chunks[1..], decode, sense)
  }

  const Fresh: Conn := Conn([], Log([], [], true))

  /** What the robot sent and did over one connection. */
  datatype Transcript = Transcript(responses: seq<Response>, actions: seq<Action>)

  /** `handle(conn, addr)` for a connection that delivers `chunks` and then
      ends (end of stream, time-out, reset or an escaped exception): the
      `finally` clause stops the motors. */
  function Serve(chunks: seq<seq<byte>>, decode: seq<byte> -> Decoded, sense: nat -> Readings): (t: Transcript)
    ensures |t.actions| > 0 && t.actions[|t.actions| - 1] == Stop
  {
    var c := Run(Fresh, chunks, decode, sense);
    Transcript(c.log.responses, c.log.actions + [Stop])
  }

  predicate NonEmptyChunks(chunks: seq<seq<byte>>)
  {
    forall i :: 0 <= i < |chunks| ==> chunks[i] != []
  }

  /** Once the connection has ended nothing more happens on it. */
  lemma {:induction false} ClosedStaysClosed(log: Log, lines: seq<seq<byte>>, decode: seq<byte> -> Decoded, sense: nat -> Readings)
    requires !log.open
    ensures HandleLines(log, lines, decode, sense) == log
    decreases |lines|
  {
    if lines != [] {
      ClosedStaysClosed(log, lines[1..], decode, sense);
    }
  }

  lemma {:induction false} HandleLinesAppend(log: Log, a: seq<seq<byte>>, b: seq<seq<byte>>,
                                             decode: seq<byte> -> Decoded, sense: nat -> Readings)
    ensures HandleLines(log, a + b, decode, sense)
         == HandleLines(HandleLines(log, a, decode, sense), b, decode, sense)
    decreases |a|
  {
    if a == [] {
      assert a + b == b;
    } else {
      assert (a + b)[0] == a[0];
      assert (a + b)[1..] == a[1..] + b;
      HandleLinesAppend(HandleLine(log, a[0], decode, sense), a[1..], b, decode, sense);
    }
  }

  /** The chunk loop handles exactly the complete lines of the bytes
      received, in order, wherever the chunk boundaries fall; while the
      connection lasts, the buffer holds the unfinished last line. */
  lemma {:induction false} RunHandlesStreamLines(c: Conn, chunks: seq<seq<byte>>,
                                                 decode: seq<byte> -> Decoded, sense: nat -> Readings)
    requires NonEmptyChunks(chunks)
    requires Newline !in c.buf
    ensures var s := Extract(c.buf + Concat(chunks), Newline);
            && Run(c, chunks, decode, sense).log == HandleLines(c.log, s.lines, decode, sense)
            && (Run(c, chunks, decode, sense).log.open ==> Run(c, chunks, decode, sense).buf == s.rest)
    decreases |chunks|
  {
    var s := Extract(c.buf + Concat(chunks), Newline);
    if chunks == [] {
      assert c.buf + Concat(chunks) == c.buf;
      ExtractUnique([], c.buf, Newline);
    } else if !c.log.open {
      ClosedStaysClosed(c.log, s.lines, decode, sense);
    } else {
      var x, y := c.buf + chunks[0], Concat(chunks[1..]);
      assert c.buf + Concat(chunks) == x + y;
      var first := Extract(x, Newline);
      var c' := Receive(c, chunks[0], decode, sense);
      assert Run(c, chunks, decode, sense) == Run(c', chunks[1..], decode, sense);
      ExtractAppend(x, y, Newline);
      var second := Extract(first.rest + y, Newline);
      assert s.lines == first.lines + second.lines;
      HandleLinesAppend(c.log, first.lines, second.lines, decode, sense);
      assert NonEmptyChunks(chunks[1..]) by {
        forall i | 0 <= i < |chunks[1..]| ensures chunks[1..][i] != [] {
          assert chunks[1..][i] == chunks[i + 1];
        }
      }
      RunHandlesStreamLines(c', chunks[1..], decode, sense);
    }
  }

  /** Fragmentation invariance of the whole handler: the replies and the
      motor calls depend only on the byte stream, not on how `recv` cut it. */
  lemma ServeFragmentationInvariant(c1: seq<seq<byte>>, c2: seq<seq<byte>>,
                                    decode: seq<byte> -> Decoded, sense: nat -> Readings)
    requires NonEmptyChunks(c1) && NonEmptyChunks(c2)
    requires Concat(c1) == Concat(c2)
    ensures Serve(c1, decode, sense) == Serve(c2, decode, sense)
  {
    RunHandlesStreamLines(Fresh, c1, decode, sense);
    RunHandlesStreamLines(Fresh, c2, decode, sense);
  }

  lemma {:induction false} RunAppend(c: Conn, a: seq<seq<byte>>, b: seq<seq<byte>>,
                                     decode: seq<byte> -> Decoded, sense: nat -> Readings)
    ensures Run(c, a + b, decode, sense) == Run(Run(c, a, decode, sense), b, decode, sense)
    decreases |a|
  {
    if a == [] {
      assert a + b == b;
    } else if !c.log.open {
      assert Run(c, a + b, decode, sense) == c;
    } else if a[0] == [] {
      assert (a + b)[0] == [];
    } else {
      assert (a + b)[0] == a[0];
      assert (a + b)[1..] == a[1..] + b;
      RunAppend(Receive(c, a[0], decode, sense), a[1..], b, decode, sense);
    }
  }

  /** An empty read is the end of the stream: whatever the peer would have
      sent afterwards is never read. */
  lemma EndOfStream(pre: seq<seq<byte>>, post: seq<seq<byte>>,
                    decode: seq<byte> -> Decoded, sense: nat -> Readings)
    ensures Serve(pre + [[]] + post, decode, sense) == Serve(pre, decode, sense)
  {
    RunAppend(Fresh, pre, [[]] + post, decode, sense);
    var c := Run(Fresh, pre, decode, sense);
    RunAppend(c, [[]], post, decode, sense);
    assert pre + [[]] + post == pre + ([[]] + post);
  }

  /** The non-blank lines of `lines`, in order. */
  function NonBlank(lines: seq<seq<byte>>): (r: seq<seq<byte>>)
    ensures |r| <= |lines|
    ensures forall i :: 0 <= i < |r| ==> !Blank(r[i], AsciiSpace)
  {
    if lines == [] then []
    else (if Blank(lines[0], AsciiSpace) then [] else [lines[0]]) + NonBlank(lines[1..])
  }

  /** No line can end the connection: decoding no non-blank line raises
      an exception the loop leaves uncaught. */
  predicate NoneUncaught(lines: seq<seq<byte>>, decode: seq<byte> -> Decoded)
  {
    forall i :: 0 <= i < |lines| ==> Blank(lines[i], AsciiSpace) || !decode(lines[i]).Uncaught?
  }

  /** The reply to each non-blank line of `lines`, the k-th of them answered
      with readings `sense(from + k)`. */
  function Replies(lines: seq<seq<byte>>, from: nat, decode: seq<byte> -> Decoded, sense: nat -> Readings): (rs: seq<Response>)
    requires NoneUncaught(lines, decode)
    ensures |rs| == |NonBlank(lines)|
    decreases |lines|
  {
    if lines == [] then []
    else
      assert NoneUncaught(lines[1..], decode) by {
        forall i | 0 <= i < |lines[1..]|
          ensures Blank(lines[1..][i], AsciiSpace) || !decode(lines[1..][i]).Uncaught?
        {
          assert lines[1..][i] == lines[i + 1];
        }
      }
      if Blank(lines[0], AsciiSpace) then Replies(lines[1..], from, decode, sense)
      else [AnswerLine(lines[0], decode, sense(from)).resp] + Replies(lines[1..], from + 1, decode, sense)
  }

  /** Blank lines are skipped and every other line gets exactly one reply,
      in arrival order, and the connection stays open. */
  lemma OneReplyPerLine(log: Log, lines: seq<seq<byte>>,
                        decode: seq<byte> -> Decoded, sense: nat -> Readings)
    requires log.open
    requires NoneUncaught(lines, decode)
    ensures var r := HandleLines(log, lines, decode, sense);
            && r.open
            && r.responses == log.responses + Replies(lines, |log.responses|, decode, sense)
            && |r.responses| == |log.responses| + |NonBlank(lines)|
  {
    RepliesInOrder(log, lines, decode, sense);
  }

  lemma {:induction false} RepliesInOrder(log: Log, lines: seq<seq<byte>>,
                                          decode: seq<byte> -> Decoded, sense: nat -> Readings)
    requires log.open
    requires NoneUncaught(lines, decode)
    ensures var r := HandleLines(log, lines, decode, sense);
            r.open && r.responses == log.responses + Replies(lines, |log.responses|, decode, sense)
    decreases |lines|
  {
    if lines != [] {
      var next := HandleLine(log, lines[0], decode, sense);
      NoneUncaughtTail(lines, decode);
      RepliesInOrder(next, lines[1..], decode, sense);
      HandleOneLine(log, lines[0], decode, sense);
      RepliesStep(log.responses, next.responses, lines, decode, sense);
    }
  }

  /** The replies to `lines` after those of the first line. */
  lemma RepliesStep(before: seq<Response>, after: seq<Response>, lines: seq<seq<byte>>,
                    decode: seq<byte> -> Decoded, sense: nat -> Readings)
    requires lines != [] && NoneUncaught(lines, decode) && NoneUncaught(lines[1..], decode)
    requires after == before +
               (if Blank(lines[0], AsciiSpace) then [] else [AnswerLine(lines[0], decode, sense(|before|)).resp])
    ensures before + Replies(lines, |before|, decode, sense) == after + Replies(lines[1..], |after|, decode, sense)
  {
    if !Blank(lines[0], AsciiSpace) {
      ReplyFirst(before, lines, decode, sense);
    } else {
      assert after == before;
    }
  }

  lemma ReplyFirst(before: seq<Response>, lines: seq<seq<byte>>,
                   decode: seq<byte> -> Decoded, sense: nat -> Readings)
    requires lines != [] && NoneUncaught(lines, decode) && NoneUncaught(lines[1..], decode)
    requires !Blank(lines[0], AsciiSpace)
    ensures var e := AnswerLine(lines[0], decode, sense(|before|));
            before + Replies(lines, |before|, decode, sense) == before + [e.resp] + Replies(lines[1..], |before| + 1, decode, sense)
  {
    var e := AnswerLine(lines[0], decode, sense(|before|));
    var rest := Replies(lines[1..], |before| + 1, decode, sense);
    assert Replies(lines, |before|, decode, sense) == [e.resp] + rest;
    Assoc(before, [e.resp], rest);
  }

  lemma NoneUncaughtTail(lines: seq<seq<byte>>, decode: seq<byte> -> Decoded)
    requires lines != [] && NoneUncaught(lines, decode)
    ensures NoneUncaught(lines[1..], decode)
  {
    forall i | 0 <= i < |lines[1..]|
      ensures Blank(lines[1..][i], AsciiSpace) || !decode(lines[1..][i]).Uncaught?
    {
      assert lines[1..][i] == lines[i + 1];
    }
  }

  /** One line that cannot end the connection adds its reply, if any. */
  lemma HandleOneLine(log: Log, line: seq<byte>, decode: seq<byte> -> Decoded, sense: nat -> Readings)
    requires log.open && (Blank(line, AsciiSpace) || !decode(line).Uncaught?)
    ensures var next := HandleLine(log, line, decode, sense);
            && next.open
            && next.responses == log.responses +
                 (if Blank(line, AsciiSpace) then [] else [AnswerLine(line, decode, sense(|log.responses|)).resp])
  {
  }

  /** Every motor call the robot makes on a connection is within the speed
      and steering limits. */
  lemma {:induction false} HandledActionsSafe(log: Log, lines: seq<seq<byte>>,
                                              decode: seq<byte> -> Decoded, sense: nat -> Readings)
    requires forall a :: a in log.actions ==> SafeAction(a)
    ensures forall a :: a in HandleLines(log, lines, decode, sense).actions ==> SafeAction(a)
    decreases |lines|
  {
    if lines != [] {
      HandledActionsSafe(HandleLine(log, lines[0], decode, sense), lines[1..], decode, sense);
    }
  }

  lemma ServeActionsSafe(chunks: seq<seq<byte>>, decode: seq<byte> -> Decoded, sense: nat -> Readings)
    ensures forall a :: a in Serve(chunks, decode, sense).actions ==> SafeAction(a)
  {
    RunActionsSafe(Fresh, chunks, decode, sense);
  }

  lemma {:induction false} RunActionsSafe(c: Conn, chunks: seq<seq<byte>>,
                                          decode: seq<byte> -> Decoded, sense: nat -> Readings)
    requires forall a :: a in c.log.actions ==> SafeAction(a)
    ensures forall a :: a in Run(c, chunks, decode, sense).log.actions ==> SafeAction(a)
    decreases |chunks|
  {
    if c.log.open && chunks != [] && chunks[0] != [] {
      var s := Extract(c.buf + chunks[0], Newline);
      HandledActionsSafe(c.log, s.lines, decode, sense);
      RunActionsSafe(Receive(c, chunks[0], decode, sense), chunks[1..], decode, sense);
    }
  }
}

=== FILE: system.dfy ===
/** The three programs together: what the renderer sends, as the client
    encodes it and the robot's handler reads it.  Node writes a string to a
    socket as UTF-8, which is spelled out here; the robot's JSON parser is
    still the handler's `decode` parameter.
 */
module System {

  import opened Values
  import opened Framing
  import Robot
  import Server
  import Client
  import R = Renderer
  import JsonText
  import Text
  import JsNumber
  import Decimal

  // ----- UTF-8, as `socket.write(string)` encodes -----

  /** Whether `b` is a UTF-8 continuation byte, `10xxxxxx`. */
  predicate Continuation(b: byte)
  {
    0x80 <= b < 0xC0
  }

  /** The number of bytes a sequence starting with the lead byte `b` has. */
  function LeadLength(b: byte): nat
  {
    if b < 0x80 then 1 else if b < 0xE0 then 2 else if b < 0xF0 then 3 else 4
  }

  /** The UTF-8 encoding of one scalar value: the lead byte announces the
      length, every later byte is a continuation byte, and an ASCII
      character is its own code. */
  function Utf8Char(c: char): (bs: seq<byte>)
    ensures 1 <= |bs| <= 4 && LeadLength(bs[0]) == |bs| && !Continuation(bs[0])
    ensures forall i :: 1 <= i < |bs| ==> Continuation(bs[i])
    ensures (c as int < 0x80) <==> |bs| == 1
    ensures c as int < 0x80 ==> bs[0] as int == c as int
  {
    var n := c as int;
    if n < 0x80 then [n as byte]
    else if n < 0x800 then [(0xC0 + n / 64) as byte, (0x80 + n % 64) as byte]
    else if n < 0x10000 then
      [(0xE0 + n / 4096) as byte, (0x80 + (n / 64) % 64) as byte, (0x80 + n % 64) as byte]
    else
      [(0xF0 + n / 0x40000) as byte, (0x80 + (n / 4096) % 64) as byte,
       (0x80 + (n / 64) % 64) as byte, (0x80 + n % 64) as byte]
  }

  function Utf8(s: string): (bs: seq<byte>)
    ensures |bs| >= |s|
  {
    if s == [] then [] else Utf8Char(s[0]) + Utf8(s[1..])
  }

  lemma {:induction false} Utf8Append(a: string, b: string)
    ensures Utf8(a + b) == Utf8(a) + Utf8(b)
    decreases |a|
  {
    if a == [] {
      assert a + b == b;
    } else {
      assert (a + b)[1..] == a[1..] + b;
      Utf8Append(a[1..], b);
    }
  }

  /** The newline byte turns up in the encoding exactly where the text has
      a newline: no other character's bytes contain it. */
  lemma {:induction false} NewlineByte(s: string)
    ensures Server.Newline in Utf8(s) <==> '\n' in s
    decreases |s|
  {
    if s != [] {
      NewlineByte(s[1..]);
      var bs := Utf8Char(s[0]);
      assert Utf8(s) == bs + Utf8(s[1..]);
      assert Server.Newline in bs <==> s[0] == '\n' by {
        if s[0] as int < 0x80 {
          assert bs == [s[0] as int as byte];
        } else {
          forall i | 0 <= i < |bs| ensures bs[i] != Server.Newline {
            if i > 0 { assert Continuation(bs[i]); }
          }
        }
      }
      assert '\n' in s <==> s[0] == '\n' || '\n' in s[1..];
    }
  }

  // ----- what the robot is handed -----

  /** The request object the robot's handler decodes from the client's
      line: the message `{ cmd, ...options }` with later duplicates winning,
      as a Python dict. */
  function Delivered(q: R.Request): Json
  {
    Obj(ToDict(Client.Message(q.cmd, q.options)))
  }

  /** The delivered dict holds the command name and every option, and
      nothing else. */
  lemma DeliveredFields(q: R.Request)
    requires DistinctKeys(q.options) && "cmd" !in Keys(q.options)
    ensures var d := Delivered(q).dict;
            && "cmd" in d && d["cmd"] == VStr(q.cmd)
            && forall k :: k != "cmd" ==> (k in d <==> k in Keys(q.options))
                                          && (k in d ==> Lookup(q.options, k) == Some(d[k]))
  {
    var m := Client.Message(q.cmd, q.options);
    Client.MessageContents(q.cmd, q.options);
    Client.MessageKeys(q.cmd, q.options);
    var d := ToDict(m);
    assert "cmd" in Keys(m);
    forall k ensures k in d <==> Lookup(m, k).Some? {
    }
  }

  /** What the robot does for each motion word the renderer sends, given
      the typed speed: it drives as the word says, the speed clamped to
      0..100, except that a `null` speed makes `int(None)` raise. */
  function Drive(w: R.Word, spd: JsNumber.Kept): Robot.Outcome
    requires w.Moves() && R.Followed(w, spd)
  {
    match w
    case Forward => StraightOutcome(R.SpeedField(spd, R.DefaultForward), true)
    case Backward => StraightOutcome(R.SpeedField(spd, R.DefaultBackward), false)
    case TurnLeft => Robot.Returned(Robot.Ack, [Robot.Steer(-Robot.TurnAngle), Robot.Forward(R.TurnSpeed)])
    case TurnRight => Robot.Returned(Robot.Ack, [Robot.Steer(Robot.TurnAngle), Robot.Forward(R.TurnSpeed)])
    case Halt => Robot.Returned(Robot.Ack, [Robot.Stop])
  }

  function StraightOutcome(speed: Value, forward: bool): Robot.Outcome
    requires speed.VInt? || speed.VNull?
  {
    if speed.VNull? then Robot.Raised(Robot.NotAnInt("speed", VNull))
    else
      var v := Robot.Clamp(speed.i, 0, Robot.MaxSpeed);
      Robot.Returned(Robot.Ack, [Robot.Steer(0), if forward then Robot.Forward(v) else Robot.Backward(v)])
  }

  lemma StraightDelivered(cmd: string, x: Value)
    ensures var d := Delivered(R.Request(cmd, R.Straight(x))).dict;
            && "cmd" in d && d["cmd"] == VStr(cmd)
            && "speed" in d && d["speed"] == x
            && "angle" in d && d["angle"] == VInt(0)
  {
    var q := R.Request(cmd, R.Straight(x));
    assert "speed"[0] != "angle"[0] && "speed" != "cmd" && "angle" != "cmd";
    assert Keys(q.options) == ["speed", "angle"];
    DeliveredFields(q);
    assert Lookup(q.options, "speed") == Some(x);
    assert Lookup(q.options, "angle") == Some(VInt(0));
  }

  lemma TurnDelivered(cmd: string)
    ensures var d := Delivered(R.Request(cmd, R.Turn())).dict;
            && "cmd" in d && d["cmd"] == VStr(cmd)
            && "speed" in d && d["speed"] == VInt(R.TurnSpeed)
            && "angle" !in d
  {
    var q := R.Request(cmd, R.Turn());
    assert "speed"[0] != "angle"[0] && "speed" != "cmd" && "angle" != "cmd";
    assert Keys(q.options) == ["speed"];
    DeliveredFields(q);
    assert Lookup(q.options, "speed") == Some(VInt(R.TurnSpeed));
  }

  lemma BareDelivered(cmd: string)
    ensures var d := Delivered(R.Request(cmd, [])).dict;
            && "cmd" in d && d["cmd"] == VStr(cmd)
            && "speed" !in d && "angle" !in d
  {
    assert "speed" != "cmd" && "angle" != "cmd";
    DeliveredFields(R.Request(cmd, []));
  }

  /** Every motion request the renderer sends is acknowledged and drives the
      motors as the word says, the typed speed clamped to 0..100, unless the
      speed is `null`, which makes `do_move` raise. */
  lemma WordDrives(w: R.Word, spd: JsNumber.Kept, readings: Robot.Readings)
    requires w.Moves() && R.Followed(w, spd)
    ensures var q := R.MotionFor(w, spd)[0];
            Robot.DoMove(Delivered(q), readings) == Drive(w, spd)
  {
    var q := R.MotionFor(w, spd)[0];
    var d := Delivered(q).dict;
    match w
    case Forward =>
      var x := R.SpeedField(spd, R.DefaultForward);
      assert q == R.Request("forward", R.Straight(x));
      StraightDelivered("forward", x);
      assert Robot.Cmd(d) == VStr("forward");
    case Backward =>
      var x := R.SpeedField(spd, R.DefaultBackward);
      assert q == R.Request("backward", R.Straight(x));
      StraightDelivered("backward", x);
      assert Robot.Cmd(d) == VStr("backward");
    case TurnLeft =>
      assert q == R.Request("left", R.Turn());
      TurnDelivered("left");
      assert Robot.Cmd(d) == VStr("left");
    case TurnRight =>
      assert q == R.Request("right", R.Turn());
      TurnDelivered("right");
      assert Robot.Cmd(d) == VStr("right");
    case Halt =>
      assert q == R.StopRequest;
      BareDelivered("stop");
      assert Robot.Cmd(d) == VStr("stop");
  }

  /** The `sensors` request reports the readings and moves nothing. */
  lemma SensorsReport(readings: Robot.Readings)
    ensures Robot.DoMove(Delivered(R.SensorsRequest), readings) == Robot.Returned(Robot.Sense(readings), [])
  {
    BareDelivered("sensors");
  }

  /** Letting go of an arrow stops the motors. */
  lemma ReleaseHalts(readings: Robot.Readings)
    ensures Robot.DoMove(Delivered(R.StopRequest), readings) == Robot.Returned(Robot.Ack, [Robot.Stop])
  {
    assert R.MotionFor(R.Halt, JsNumber.Undefined)[0] == R.StopRequest;
    WordDrives(R.Halt, JsNumber.Undefined, readings);
  }

  /** Holding an arrow drives: up at 40 straight ahead, down at 30 in
      reverse, left and right at 35 with the wheels at -30 and 30 degrees. */
  lemma ArrowDrives(a: R.Arrow, readings: Robot.Readings)
    ensures Robot.DoMove(Delivered(R.PressRequest(a)), readings)
              == Drive(R.ArrowWord(a), JsNumber.Undefined)
  {
    var w := R.ArrowWord(a);
    assert R.PressRequest(a) == R.MotionFor(w, JsNumber.Undefined)[0] by {
      match a
      case Up =>
      case Down =>
      case Left =>
      case Right =>
    }
    WordDrives(w, JsNumber.Undefined, readings);
  }

  /** Nothing the text box sends is refused as unknown: an unknown word is
      caught in the renderer and only `sensors` goes out.  A request makes
      the handler raise exactly when it is a `forward` or `backward` whose
      typed speed is beyond the double range: `JSON.stringify` writes
      `null`, and `int(None)` raises. */
  lemma TypedAnswered(value: string, readings: Robot.Readings)
    ensures var r := R.UpdateData(value);
            r.Submit? ==> forall i :: 0 <= i < |r.requests| ==>
              var out := Robot.DoMove(Delivered(r.requests[i]), readings);
              && (out.Raised? <==> i == 0 && R.SpeedOverflows(value))
              && (out.Returned? ==> out.resp != Robot.Refusal(Robot.UnknownCmd))
  {
    if R.Typed(value) != [] {
      R.UpdateDataOfWords(value, R.Words(value), R.Typed(value));
      RespondAnswered(R.Words(value), R.Typed(value), readings);
    }
  }

  /** The requests answering the words of a non-blank text. */
  lemma RespondAnswered(ws: seq<string>, text: string, readings: Robot.Readings)
    requires ws != []
    ensures var r := R.Respond(ws, text);
            var overflows := (R.WordOf(ws[0]) == R.Forward || R.WordOf(ws[0]) == R.Backward)
                             && R.TypedSpeed(ws).Infinite?;
            r.Submit? ==> forall i :: 0 <= i < |r.requests| ==>
              var out := Robot.DoMove(Delivered(r.requests[i]), readings);
              && (out.Raised? <==> i == 0 && overflows)
              && (out.Returned? ==> out.resp != Robot.Refusal(Robot.UnknownCmd))
  {
    var w := R.WordOf(ws[0]);
    var spd := R.TypedSpeed(ws);
    var r := R.Respond(ws, text);
    if r.Submit? {
      var qs := r.requests;
      assert qs == R.MotionFor(w, spd) + [R.SensorsRequest];
      forall i | 0 <= i < |qs|
        ensures var out := Robot.DoMove(Delivered(qs[i]), readings);
                && (out.Raised? <==> i == 0 && (w == R.Forward || w == R.Backward) && spd.Infinite?)
                && (out.Returned? ==> out.resp != Robot.Refusal(Robot.UnknownCmd))
      {
        if i == |qs| - 1 {
          assert qs[i] == R.SensorsRequest;
          SensorsReport(readings);
        } else {
          assert w.Moves() && qs[i] == R.MotionFor(w, spd)[0];
          WordDrives(w, spd, readings);
        }
      }
    }
  }

  /** Typing `forward n` or `backward n` with `n` beyond the double range
      sends `"speed":null`, and `do_move` raises on it, so the handler stops
      the motors and replies with the error. */
  lemma TypedOverflowRaises(w: R.Word, n: int, readings: Robot.Readings)
    requires w == R.Forward || w == R.Backward
    requires (if n < 0 then -n else n) >= JsNumber.Overflow
    ensures var r := R.UpdateData(R.Name(w) + " " + Decimal.IntText(n));
            && r.Submit? && |r.requests| == 2
            && Robot.DoMove(Delivered(r.requests[0]), readings) == Robot.Raised(Robot.NotAnInt("speed", VNull))
  {
    R.TypedNumeral(w, n);
    StraightDelivered(R.Name(w), VNull);
  }

  // ----- one request end to end -----

  /** The bytes of the client's line: the UTF-8 of the message's JSON text,
      which starts with `{` and holds no newline byte, then the newline. */
  lemma EncodedLine(cmd: string, options: Fields)
    ensures var body := Utf8(JsonText.Stringify(Client.Message(cmd, options)));
            && Utf8(Client.Encode(cmd, options)) == body + [Server.Newline]
            && Server.Newline !in body
            && body[0] == 123
  {
    var text := JsonText.Stringify(Client.Message(cmd, options));
    var body := Utf8(text);
    assert Client.Encode(cmd, options) == text + "\n";
    Utf8Append(text, "\n");
    assert Utf8("\n") == [Server.Newline];
    NewlineByte(text);
    assert body == Utf8Char(text[0]) + Utf8(text[1..]);
  }

  /** A fresh connection whose bytes are one line handles exactly that line. */
  lemma StreamOfOneLine(line: seq<byte>, chunks: seq<seq<byte>>,
                        decode: seq<byte> -> Server.Decoded, sense: nat -> Robot.Readings)
    requires Server.NonEmptyChunks(chunks)
    requires Concat(chunks) == line + [Server.Newline] && Server.Newline !in line
    ensures Server.Run(Server.Fresh, chunks, decode, sense).log
              == Server.HandleLine(Server.Fresh.log, line, decode, sense)
  {
    assert Concat(chunks) == Join([line], Server.Newline) + [];
    ExtractUnique([line], [], Server.Newline);
    assert [] + Concat(chunks) == Concat(chunks);
    Server.RunHandlesStreamLines(Server.Fresh, chunks, decode, sense);
    assert Server.HandleLines(Server.Fresh.log, [line], decode, sense)
             == Server.HandleLine(Server.Fresh.log, line, decode, sense);
  }

  /** The first line a connection answers gets the reply `do_move` gives. */
  lemma FirstLineReply(line: seq<byte>, decode: seq<byte> -> Server.Decoded, sense: nat -> Robot.Readings)
    requires !Text.Blank(line, Server.AsciiSpace) && decode(line).Parsed?
    ensures var l := Server.HandleLine(Server.Fresh.log, line, decode, sense);
            && |l.responses| == 1
            && (match Robot.DoMove(decode(line).json, sense(0))
                case Returned(resp, acts) => l.responses[0] == resp && l.actions == acts
                case Raised(err) => l.responses[0] == Robot.Refusal(Robot.Exception(err)) && l.actions == [Robot.Stop])
  {
    Server.ParsedLineReply(line, decode, sense(0));
  }

  /** A connection that receives one non-blank line the parser reads sends
      back one reply, the one `do_move` gives, and stops the motors at the
      end. */
  lemma OneLineOneReply(line: seq<byte>, chunks: seq<seq<byte>>,
                        decode: seq<byte> -> Server.Decoded, sense: nat -> Robot.Readings)
    requires Server.NonEmptyChunks(chunks)
    requires Concat(chunks) == line + [Server.Newline] && Server.Newline !in line
    requires !Text.Blank(line, Server.AsciiSpace) && decode(line).Parsed?
    ensures var t := Server.Serve(chunks, decode, sense);
            && |t.responses| == 1
            && (match Robot.DoMove(decode(line).json, sense(0))
                case Returned(resp, acts) => t.responses[0] == resp && t.actions == acts + [Robot.Stop]
                case Raised(err) => t.responses[0] == Robot.Refusal(Robot.Exception(err)) && t.actions == [Robot.Stop, Robot.Stop])
  {
    StreamOfOneLine(line, chunks, decode, sense);
    FirstLineReply(line, decode, sense);
  }

  /** The message holds only integers a double represents exactly when the
      options do: spreading adds the string `cmd` and copies option values. */
  lemma MessageExact(cmd: string, options: Fields)
    requires JsNumber.ExactInts(options)
    ensures JsNumber.ExactInts(Client.Message(cmd, options))
  {
    SpreadExact([("cmd", VStr(cmd))], options);
  }

  lemma {:induction false} SpreadExact(target: Fields, source: Fields)
    requires JsNumber.ExactInts(target) && JsNumber.ExactInts(source)
    ensures JsNumber.ExactInts(Client.Spread(target, source))
    decreases |source|
  {
    if source != [] {
      AssignExact(target, source[0].0, source[0].1);
      assert JsNumber.ExactInts(source[1..]) by {
        forall k | 0 <= k < |source[1..]| ensures source[1..][k] == source[k + 1] { }
      }
      SpreadExact(Client.Assign(target, source[0].0, source[0].1), source[1..]);
    }
  }

  lemma {:induction false} AssignExact(obj: Fields, k: string, v: Value)
    requires JsNumber.ExactInts(obj)
    requires v.VInt? ==> -(JsNumber.MaxExact as int) <= v.i <= JsNumber.MaxExact
    ensures JsNumber.ExactInts(Client.Assign(obj, k, v))
    decreases |obj|
  {
    if obj != [] && obj[0].0 != k {
      assert JsNumber.ExactInts(obj[1..]) by {
        forall j | 0 <= j < |obj[1..]| ensures obj[1..][j] == obj[j + 1] { }
      }
      AssignExact(obj[1..], k, v);
      var r := Client.Assign(obj[1..], k, v);
      assert Client.Assign(obj, k, v) == [obj[0]] + r;
      forall j | 1 <= j < |[obj[0]] + r| ensures ([obj[0]] + r)[j] == r[j - 1] { }
    }
  }

  /** `decode` behaves as `json.loads` does on the object texts the JSON
      reader accepts whose integers a double holds exactly: it yields the
      dict of their members, later duplicates winning.  Larger integers are
      left out: `JSON.stringify` never writes them as plain numerals, and
      `json.loads` refuses a literal of more than 4300 digits. */
  ghost predicate Conforms(decode: seq<byte> -> Server.Decoded)
  {
    forall t :: JsonText.ReadObject(t).Some? && JsNumber.ExactInts(JsonText.ReadObject(t).value) ==>
      decode(Utf8(t)) == Server.Parsed(Obj(ToDict(JsonText.ReadObject(t).value)))
  }

  /** One `pi-move` over a fresh connection, with options whose integers a
      double holds exactly (every request the renderer sends, by
      `Renderer.SentIntegersExact`), however the line is cut into chunks on
      the way: the robot sends back exactly one reply, the one
      `do_move` gives for the message, and stops the motors at the end. */
  lemma OneMoveOneReply(cmd: string, options: Fields, chunks: seq<seq<byte>>,
                        decode: seq<byte> -> Server.Decoded, sense: nat -> Robot.Readings)
    requires Server.NonEmptyChunks(chunks)
    requires JsNumber.ExactInts(options)
    requires Concat(chunks) == Utf8(Client.Encode(cmd, options))
    requires Conforms(decode)
    ensures var t := Server.Serve(chunks, decode, sense);
            var req := Obj(ToDict(Client.Message(cmd, options)));
            && |t.responses| == 1
            && (match Robot.DoMove(req, sense(0))
                case Returned(resp, acts) => t.responses[0] == resp && t.actions == acts + [Robot.Stop]
                case Raised(err) => t.responses[0] == Robot.Refusal(Robot.Exception(err)) && t.actions == [Robot.Stop, Robot.Stop])
  {
    var text := JsonText.Stringify(Client.Message(cmd, options));
    var line := Utf8(text);
    EncodedLine(cmd, options);
    JsonText.StringifyRoundTrip(Client.Message(cmd, options));
    MessageExact(cmd, options);
    assert decode(line) == Server.Parsed(Obj(ToDict(Client.Message(cmd, options))));
    assert !Text.Blank(line, Server.AsciiSpace) by {
      assert !Server.AsciiSpace(line[0]);
    }
    OneLineOneReply(line, chunks, decode, sense);
  }
}

=== FILE: text.dfy ===
/** Whitespace handling shared by the client and the robot: trimming a
    sequence at both ends and cutting it into whitespace-separated tokens.
    What counts as whitespace differs between Python's `bytes.strip`,
    Python's `int()`, and JavaScript's `trim` / `\s`, so it is a parameter.
 */
module Text {

  /** Index of the first element of `s` at or after `from` that is not a space. */
  function SkipSpace<T>(s: seq<T>, from: nat, sp: T -> bool): (i: nat)
    requires from <= |s|
    ensures from <= i <= |s|
    ensures forall k :: from <= k < i ==> sp(s[k])
    ensures i < |s| ==> !sp(s[i])
    decreases |s| - from
  {
    if from == |s| || !sp(s[from]) then from else SkipSpace(s, from + 1, sp)
  }

  /** One past the last element of `s[..upto]` that is not a space. */
  function SkipSpaceBack<T>(s: seq<T>, upto: nat, sp: T -> bool): (j: nat)
    requires upto <= |s|
    ensures j <= upto
    ensures forall k :: j <= k < upto ==> sp(s[k])
    ensures j > 0 ==> !sp(s[j - 1])
  {
    if upto == 0 || !sp(s[upto - 1]) then upto else SkipSpaceBack(s, upto - 1, sp)
  }

  /** `s` with leading and trailing spaces removed. */
  function Trim<T>(s: seq<T>, sp: T -> bool): (r: seq<T>)
    ensures |r| <= |s|
    ensures r == [] <==> Blank(s, sp)
    ensures r != [] ==> !sp(r[0]) && !sp(r[|r| - 1])
    ensures var i := SkipSpace(s, 0, sp);
            i + |r| <= |s| && r == s[i..i + |r|] && Blank(s[..i], sp) && Blank(s[i + |r|..], sp)
  {
    var i := SkipSpace(s, 0, sp);
    var j := SkipSpaceBack(s, |s|, sp);
    if i == |s| then
      assert forall k :: 0 <= k < |s| ==> sp(s[k]);
      []
    else
      assert !sp(s[i]);
      var r := s[i..j];
      assert r == s[i..i + |r|];
      assert forall k :: 0 <= k < |s[j..]| ==> s[j..][k] == s[j + k];
      r
  }

  /** Whether a sequence is empty once trimmed. */
  predicate Blank<T>(s: seq<T>, sp: T -> bool)
  {
    forall k :: 0 <= k < |s| ==> sp(s[k])
  }

  /** Maximal runs of non-space elements of `s[from..]`, in order: what
      `split(/\s+/)` gives for text that has been trimmed. */
  function Tokens<T>(s: seq<T>, from: nat, sp: T -> bool): (ts: seq<seq<T>>)
    requires from <= |s|
    ensures forall n :: 0 <= n < |ts| ==> ts[n] != [] && forall k :: 0 <= k < |ts[n]| ==> !sp(ts[n][k])
    ensures ts == [] <==> Blank(s[from..], sp)
    decreases |s| - from
  {
    var i := SkipSpace(s, from, sp);
    if i == |s| then
      assert forall k :: 0 <= k < |s[from..]| ==> s[from..][k] == s[from + k];
      []
    else
      var e := SkipRun(s, i, sp);
      var t := s[i..e];
      assert !Blank(s[from..], sp) by { assert s[from..][i - from] == s[i]; }
      [t] + Tokens(s, e, sp)
  }

  /** One past the end of the run of non-space elements that starts at `from`. */
  function SkipRun<T>(s: seq<T>, from: nat, sp: T -> bool): (e: nat)
    requires from < |s| && !sp(s[from])
    ensures from < e <= |s|
    ensures forall k :: from <= k < e ==> !sp(s[k])
    ensures e < |s| ==> sp(s[e])
    decreases |s| - from
  {
    if from + 1 == |s| || sp(s[from + 1]) then from + 1 else SkipRun(s, from + 1, sp)
  }

  // ----- what `Tokens` promises -----

  /** `gaps[0] + ts[0] + gaps[1] + ... + ts[|ts| - 1] + gaps[|ts|]`: words
      with separators around and between them. */
  function Interleave<T>(gaps: seq<seq<T>>, ts: seq<seq<T>>): seq<T>
    requires |gaps| == |ts| + 1
    decreases |ts|
  {
    if ts == [] then gaps[0] else gaps[0] + ts[0] + Interleave(gaps[1..], ts[1..])
  }

  /** Separators are blank, and those between two words are not empty. */
  predicate Separators<T>(gaps: seq<seq<T>>, sp: T -> bool)
  {
    && (forall n :: 0 <= n < |gaps| ==> Blank(gaps[n], sp))
    && (forall n :: 0 < n < |gaps| - 1 ==> gaps[n] != [])
  }

  /** Words are non-empty and hold no space. */
  predicate Solid<T>(ts: seq<seq<T>>, sp: T -> bool)
  {
    forall n :: 0 <= n < |ts| ==> ts[n] != [] && forall k :: 0 <= k < |ts[n]| ==> !sp(ts[n][k])
  }

  /** A blank stretch followed by a non-space (or the end) is skipped whole. */
  lemma {:induction false} SkipSpaceTo<T>(s: seq<T>, from: nat, i: nat, sp: T -> bool)
    requires from <= i <= |s|
    requires forall k :: from <= k < i ==> sp(s[k])
    requires i < |s| ==> !sp(s[i])
    ensures SkipSpace(s, from, sp) == i
    decreases i - from
  {
    if from < i {
      SkipSpaceTo(s, from + 1, i, sp);
    }
  }

  /** A run of non-space elements ends where the first space is. */
  lemma {:induction false} SkipRunTo<T>(s: seq<T>, from: nat, e: nat, sp: T -> bool)
    requires from < e <= |s|
    requires forall k :: from <= k < e ==> !sp(s[k])
    requires e < |s| ==> sp(s[e])
    ensures SkipRun(s, from, sp) == e
    decreases e - from
  {
    if from + 1 < e {
      SkipRunTo(s, from + 1, e, sp);
    }
  }

  /** `s` is the words `ts` with the separators `gaps`, the first of them `lead`. */
  ghost predicate Layout<T>(s: seq<T>, gaps: seq<seq<T>>, ts: seq<seq<T>>, lead: seq<T>, sp: T -> bool)
  {
    |gaps| == |ts| + 1 && Separators(gaps, sp) && gaps[0] == lead && Interleave(gaps, ts) == s
  }

  /** The separators of `s[from..]`: the blank stretch before each token
      and the one after the last. */
  function Gaps<T>(s: seq<T>, from: nat, sp: T -> bool): seq<seq<T>>
    requires from <= |s|
    decreases |s| - from
  {
    var i := SkipSpace(s, from, sp);
    if i == |s| then [s[from..]] else [s[from..i]] + Gaps(s, SkipRun(s, i, sp), sp)
  }

  /** Every sequence is its tokens with separators around and between
      them, the first separator being the leading blanks. */
  lemma {:induction false} TokensSplit<T>(s: seq<T>, from: nat, sp: T -> bool)
    requires from <= |s|
    ensures Layout(s[from..], Gaps(s, from, sp), Tokens(s, from, sp), s[from..SkipSpace(s, from, sp)], sp)
    decreases |s| - from
  {
    var i := SkipSpace(s, from, sp);
    if i == |s| {
      SplitNone(s, from, sp);
    } else {
      var e := SkipRun(s, i, sp);
      TokensSplit(s, e, sp);
      SplitStep(s, from, Gaps(s, e, sp), sp);
    }
  }

  /** For a sequence that does not start with a space, the first
      separator is empty. */
  lemma TokensSplitAll<T>(s: seq<T>, sp: T -> bool)
    requires s != [] ==> !sp(s[0])
    ensures Layout(s, Gaps(s, 0, sp), Tokens(s, 0, sp), [], sp)
  {
    TokensSplit(s, 0, sp);
    assert s[0..] == s;
    if s != [] {
      SkipSpaceTo(s, 0, 0, sp);
    }
    assert s[0..SkipSpace(s, 0, sp)] == [];
  }

  /** A blank rest is one separator and no token. */
  lemma SplitNone<T>(s: seq<T>, from: nat, sp: T -> bool)
    requires from <= |s| && SkipSpace(s, from, sp) == |s|
    ensures Layout(s[from..], [s[from..]], Tokens(s, from, sp), s[from..SkipSpace(s, from, sp)], sp)
  {
    LeadBlank(s, from, sp);
    assert Tokens(s, from, sp) == [];
  }

  lemma LeadBlank<T>(s: seq<T>, from: nat, sp: T -> bool)
    requires from <= |s|
    ensures Blank(s[from..SkipSpace(s, from, sp)], sp)
  {
    var g := s[from..SkipSpace(s, from, sp)];
    forall k | 0 <= k < |g| ensures sp(g[k]) {
      assert g[k] == s[from + k];
    }
  }

  /** One more token in front of the layout of the rest. */
  lemma SplitStep<T>(s: seq<T>, from: nat, gaps: seq<seq<T>>, sp: T -> bool)
    requires from <= |s| && SkipSpace(s, from, sp) < |s|
    requires var e := SkipRun(s, SkipSpace(s, from, sp), sp);
             Layout(s[e..], gaps, Tokens(s, e, sp), s[e..SkipSpace(s, e, sp)], sp)
    ensures var i := SkipSpace(s, from, sp);
            Layout(s[from..], [s[from..i]] + gaps, Tokens(s, from, sp), s[from..i], sp)
  {
    var i := SkipSpace(s, from, sp);
    var e := SkipRun(s, i, sp);
    var rest := Tokens(s, e, sp);
    assert Tokens(s, from, sp) == [s[i..e]] + rest;
    assert rest != [] ==> gaps[0] != [] by {
      if rest != [] {
        assert e < |s|;
        assert SkipSpace(s, e, sp) > e;
      }
    }
    LeadBlank(s, from, sp);
    SeparatorsCons(s[from..i], gaps, rest, sp);
    JoinStep(s, from, i, e, gaps, rest);
  }

  lemma JoinStep<T>(s: seq<T>, from: nat, i: nat, e: nat, gaps: seq<seq<T>>, ts: seq<seq<T>>)
    requires from <= i <= e <= |s| && |gaps| == |ts| + 1
    requires Interleave(gaps, ts) == s[e..]
    ensures Interleave([s[from..i]] + gaps, [s[i..e]] + ts) == s[from..]
  {
    InterleaveCons(s[from..i], gaps, s[i..e], ts);
    assert s[from..] == s[from..i] + s[i..e] + s[e..];
  }

  lemma SeparatorsCons<T>(g: seq<T>, gaps: seq<seq<T>>, ts: seq<seq<T>>, sp: T -> bool)
    requires Blank(g, sp) && Separators(gaps, sp) && |gaps| == |ts| + 1
    requires ts != [] ==> gaps[0] != []
    ensures Separators([g] + gaps, sp)
  {
    var all := [g] + gaps;
    forall n | 0 < n < |all| ensures all[n] == gaps[n - 1] {
    }
  }

  lemma InterleaveCons<T>(g: seq<T>, gaps: seq<seq<T>>, t: seq<T>, ts: seq<seq<T>>)
    requires |gaps| == |ts| + 1
    ensures Interleave([g] + gaps, [t] + ts) == g + t + Interleave(gaps, ts)
  {
    assert ([g] + gaps)[1..] == gaps && ([t] + ts)[1..] == ts;
  }

  /** Conversely, words joined by separators are read back as exactly
      those words: together with `TokensSplit`, `Tokens` is the one
      sequence of words a text is made of. */
  lemma TokensOfInterleave<T>(gaps: seq<seq<T>>, ts: seq<seq<T>>, sp: T -> bool)
    requires |gaps| == |ts| + 1 && Separators(gaps, sp) && Solid(ts, sp)
    ensures Tokens(Interleave(gaps, ts), 0, sp) == ts
  {
    TokensAfter([], gaps, ts, sp);
    assert [] + Interleave(gaps, ts) == Interleave(gaps, ts);
  }

  lemma {:induction false} TokensAfter<T>(pre: seq<T>, gaps: seq<seq<T>>, ts: seq<seq<T>>, sp: T -> bool)
    requires |gaps| == |ts| + 1 && Separators(gaps, sp) && Solid(ts, sp)
    ensures Tokens(pre + Interleave(gaps, ts), |pre|, sp) == ts
    decreases |ts|
  {
    if ts == [] {
      var s := pre + Interleave(gaps, ts);
      SkipSpaceTo(s, |pre|, |s|, sp);
    } else {
      assert Separators(gaps[1..], sp) by {
        forall n | 0 <= n < |gaps[1..]| ensures Blank(gaps[1..][n], sp) {
          assert gaps[1..][n] == gaps[n + 1];
        }
      }
      assert Solid(ts[1..], sp) by {
        forall n | 0 <= n < |ts[1..]| ensures ts[1..][n] == ts[n + 1] {
        }
      }
      TokensAfter(pre + gaps[0] + ts[0], gaps[1..], ts[1..], sp);
      AfterStep(pre, gaps, ts, sp);
    }
  }

  /** The first word, then the words after it. */
  lemma AfterStep<T>(pre: seq<T>, gaps: seq<seq<T>>, ts: seq<seq<T>>, sp: T -> bool)
    requires |gaps| == |ts| + 1 && ts != [] && Separators(gaps, sp) && Solid(ts, sp)
    requires Tokens(pre + gaps[0] + ts[0] + Interleave(gaps[1..], ts[1..]), |pre + gaps[0] + ts[0]|, sp) == ts[1..]
    ensures Tokens(pre + Interleave(gaps, ts), |pre|, sp) == ts
  {
    var r := Interleave(gaps[1..], ts[1..]);
    RestStartsBlank(gaps, ts, sp);
    NextToken(pre, gaps[0], ts[0], r, sp);
    InterleaveHead(pre, gaps, ts);
    HeadTail(ts);
  }

  // Steps the solver takes once they are named; they keep the proof of
  // AfterStep small.

  lemma InterleaveHead<T>(pre: seq<T>, gaps: seq<seq<T>>, ts: seq<seq<T>>)
    requires |gaps| == |ts| + 1 && ts != []
    ensures pre + Interleave(gaps, ts) == pre + gaps[0] + ts[0] + Interleave(gaps[1..], ts[1..])
  {
  }

  lemma HeadTail<T>(ts: seq<T>)
    requires ts != []
    ensures ts == [ts[0]] + ts[1..]
  {
  }

  /** What follows the first word starts with a space, if anything does. */
  lemma RestStartsBlank<T>(gaps: seq<seq<T>>, ts: seq<seq<T>>, sp: T -> bool)
    requires |gaps| == |ts| + 1 && ts != [] && Separators(gaps, sp)
    ensures var r := Interleave(gaps[1..], ts[1..]);
            r != [] ==> sp(r[0])
  {
    var r := Interleave(gaps[1..], ts[1..]);
    if ts[1..] != [] {
      assert gaps[1] != [] && r == gaps[1] + ts[1..][0] + Interleave(gaps[2..], ts[2..]);
      assert r[0] == gaps[1][0];
    } else {
      assert r == gaps[1];
    }
    if r != [] {
      assert Blank(gaps[1], sp);
    }
  }

  /** After `pre`, blanks `g` and a word `t` followed by the end or a space
      make `t` the next token. */
  lemma NextToken<T>(pre: seq<T>, g: seq<T>, t: seq<T>, r: seq<T>, sp: T -> bool)
    requires Blank(g, sp) && t != [] && forall k :: 0 <= k < |t| ==> !sp(t[k])
    requires r != [] ==> sp(r[0])
    ensures var s := pre + g + t + r;
            Tokens(s, |pre|, sp) == [t] + Tokens(s, |pre + g + t|, sp)
  {
    var s := pre + g + t + r;
    var a := |pre| + |g|;
    var b := a + |t|;
    assert forall k :: |pre| <= k < a ==> s[k] == g[k - |pre|];
    assert forall k :: a <= k < b ==> s[k] == t[k - a];
    assert b < |s| ==> s[b] == r[0];
    SkipSpaceTo(s, |pre|, a, sp);
    SkipRunTo(s, a, b, sp);
    assert s[a..b] == t;
  }

  /** Trimming leaves a sequence without spaces unchanged. */
  lemma TrimNoSpace<T>(s: seq<T>, sp: T -> bool)
    requires forall k :: 0 <= k < |s| ==> !sp(s[k])
    ensures Trim(s, sp) == s
  {
    if s != [] {
      assert SkipSpace(s, 0, sp) == 0;
      assert SkipSpaceBack(s, |s|, sp) == |s|;
    }
  }

  /** Trimming keeps an end that is not a space. */
  lemma TrimEnds<T>(s: seq<T>, sp: T -> bool)
    requires s != []
    ensures !sp(s[0]) ==> Trim(s, sp) != [] && Trim(s, sp)[0] == s[0]
    ensures !sp(s[|s| - 1]) ==> Trim(s, sp) != [] && Trim(s, sp)[|Trim(s, sp)| - 1] == s[|s| - 1]
  {
    var r := Trim(s, sp);
    var i := SkipSpace(s, 0, sp);
    if !sp(s[0]) {
      assert i == 0;
      assert s[0] in s && !Blank(s, sp);
    }
    if !sp(s[|s| - 1]) {
      assert !Blank(s, sp);
    }
  }

  /** The characters JavaScript's `trim()` removes and `\s` matches:
      WhiteSpace and LineTerminator of ECMA-262. */
  predicate JsSpace(c: char)
  {
    || c == '\t' || c == '\n' || c == '\U{B}' || c == '\U{C}' || c == '\r' || c == ' '
    || c == '\U{A0}' || c == '\U{1680}' || '\U{2000}' <= c <= '\U{200A}'
    || c == '\U{2028}' || c == '\U{2029}' || c == '\U{202F}' || c == '\U{205F}'
    || c == '\U{3000}' || c == '\U{FEFF}'
  }
}

=== FILE: values.dfy ===
/** Values exchanged by the desktop client and the robot's control server.

    A protocol message is a flat JSON object: string keys mapped to scalar
    values.  The client side builds messages as JavaScript objects, whose
    properties keep their insertion order (`Fields`); the robot side receives
    them as Python dictionaries (`map<string, Value>`).
 */
module Values {

  datatype Option<+T> = None | Some(value: T)

  /** One octet of the TCP byte stream. */
  newtype byte = x: int | 0 <= x < 256

  /** A scalar JSON value. */
  datatype Value = VInt(i: int) | VStr(s: string) | VBool(b: bool) | VNull

  /** The properties of a JavaScript object, in insertion order. */
  type Fields = seq<(string, Value)>

  /** What `json.loads` hands to the dispatcher: a dictionary, or any other
      JSON document (number, string, array, `null`, ...), which has no `get`. */
  datatype Json = Obj(dict: map<string, Value>) | NonObject

  function Keys(f: Fields): (ks: seq<string>)
    ensures |ks| == |f|
    ensures forall i :: 0 <= i < |f| ==> ks[i] == f[i].0
  {
    if f == [] then [] else [f[0].0] + Keys(f[1..])
  }

  /** No key occurs twice, as in any JavaScript object. */
  predicate DistinctKeys(f: Fields)
  {
    forall i, j :: 0 <= i < j < |f| ==> f[i].0 != f[j].0
  }

  /** The value of property `k`, if the object has one. */
  function Lookup(f: Fields, k: string): (r: Option<Value>)
    ensures r.None? <==> k !in Keys(f)
  {
    if f == [] then None
    else if f[0].0 == k then Some(f[0].1)
    else Lookup(f[1..], k)
  }

  /** The Python dictionary built from a JSON object text whose members are
      `f`, in order: a later duplicate key overwrites an earlier one. */
  function ToDict(f: Fields): (d: map<string, Value>)
    ensures forall k :: k in d <==> k in Keys(f)
    ensures DistinctKeys(f) ==> forall k :: k in d ==> Lookup(f, k) == Some(d[k])
  {
    if f == [] then map[]
    else
      var d := ToDict(f[1..]);
      assert Keys(f) == [f[0].0] + Keys(f[1..]);
      assert DistinctKeys(f) ==> DistinctKeys(f[1..]) && f[0].0 !in Keys(f[1..]);
      if f[0].0 in d then d else d[f[0].0 := f[0].1]
  }
}
